=== FILE: README.md ===
# synesthetic_screen: the synesthetizer, its notes and the time label, in Dafny

synesthetic_screen plays a song and draws, about twelve times a second, a frame
of coloured diamonds for the tones it hears. This project models the core of
that pipeline and proves properties about the model:

- **Notes** (`note.dfy`, module `Notes`). A `Note` is the accumulator the tone
  clusterer grows from spectral bins. It holds its loudest bin (the peak) and
  two `Range<f32>` values, one over amplitudes and one over MIDI numbers.
  - `try_include` tests a bin against those ranges and either refuses it or
    folds it in. It is a method of the class `Notes.Note`, specified through
    the value type `NoteState`.
  - `dist_from_range_bounds`, `include_in_range` and `range_len` are pure
    functions.
  - `width`, `height`, `x`, `y`, the palette slots read by `color`, and
    `paint` are modelled on a symbolic image (`Blank`, or a glyph drawn over
    an image).
- **The palette** (`colors.dfy`, module `Colors`). `from_hex` reads twelve
  `#RRGGBB` strings, together with `u8::from_str_radix`.
- **The synesthetizer** (`synesthetizer.dfy`, module `Synesthetizer`). The
  class `Synesthetizer` holds the block size, the sample buffer, the current
  notes, the kept overlay image and the pending snapshot request. Modelled:
  - `new`, `clear_overlay` and `request_snapshot`;
  - `load_music`, which doubles the block size while the frame rate gets closer
    to 12 fps;
  - `update_samples`, which cuts, windows and resizes the block;
  - `find_tones`, which clusters the spectrum into notes and sorts them stably
    by peak amplitude;
  - `new_frame`, the per-frame driver.
- **Clustering and sorting** (`clustering.dfy` and `sorting.dfy`). These state
  on values what the `find_tones` loop computes. The result is `Tones`. The
  imperative loop is proved to produce it.
- **The time label** (`control_panel.dfy`, module `ControlPanel`).
  `format_min_sec` writes seconds as `MM:SS`.
- `float.dfy` (module `Float`) writes out the Rust float operations the
  source uses, over exact reals:
  - `floor`, `ceil` and `round`;
  - the truncating `%`;
  - the saturating `as u32`, `as usize` and `as i32` casts.
- `wrappers.dfy` holds `Option` and `Result`.

Some properties of the source that the model makes explicit:

- **Flipped ranges.** A note's ranges start as `a..a`. Every value folded in
  then lies outside the range, because `contains` never holds on `a..a` or on
  a reversed range. So the start ends up holding the largest value seen and
  the end the smallest (`IncludeInFlippedRange`, `AbsorbKeepsValid`).
  - `range_len` is therefore the negated spread.
  - The acceptance test amounts to: the spread after taking the bin in is at
    most the limit plus twice the spread before (`AcceptanceRule`).
  - A note's MIDI spread can therefore grow past `MAX_MIDI_RANGE`
    (`SpreadExceedsLimit`: bins at MIDI 0, 1 and 3 form one note of spread 3).
- **Block size.** `load_music` settles on the smallest power of two (at least
  2) that brings the frame rate to at most 16 fps. That is 4096 samples at
  44.1 kHz and at 48 kHz.
- **Overlay canvas.** `new_frame` paints over the kept image only when overlay
  mode was already on. Switching overlay on starts from a blank canvas,
  because nothing is kept while overlay mode is off.

Rust `f32`/`f64` values are modelled as `real`. Float operations whose exact
behaviour matters (remainder, rounding, casts) are written out in `Float`.
Rounding error of float arithmetic is not modelled.

## Model

| member | source | states |
|---|---|---|
| Float.FMod | src/note.rs:153 | float `%` by a whole divisor: the result has the dividend's sign, is smaller than the divisor in magnitude, and differs from the dividend by a whole multiple of it |
| Float.FModNonNegative | src/control_panel.rs:164 | for a non-negative dividend, the whole part of the remainder is `floor(x) mod m` and the fractional part of `x` is kept |
| Float.Floor | src/note.rs:163 | `floor` is the largest integer not above its argument |
| Float.Ceil | src/note.rs:140 | `ceil` is the smallest integer not below its argument |
| Float.Trunc | src/control_panel.rs:163 | truncation toward zero: `floor` for non-negative input, `ceil` for negative input |
| Float.AsU32 | src/control_panel.rs:163 | `as u32` truncates toward zero and saturates: `floor(x)` in range, 0 below 1, `u32::MAX` from `u32::MAX` up |
| Float.AsUsize | src/synesthetizer.rs:151 | `as usize` truncates toward zero and saturates: `floor(x)` in range, 0 below 1, `usize::MAX` from `usize::MAX` up |
| Float.AsI32 | src/note.rs:144 | `as i32` truncates toward zero within the `i32` range and saturates at `i32::MIN` and `i32::MAX` outside it |
| Float.RoundHalfAway | src/note.rs:144 | `round` lands within 0.5 of its argument, and a tie goes away from zero |
| Colors.FromHex | src/synesthetizer.rs:19-34 | succeeds exactly when there are 12 entries and each has length 7 with three readable hex channels; on success slot `i` holds entry `i` with alpha 255; otherwise it reports a wrong count, or the first bad entry and why it is bad |
| Colors.HexDigit | src/synesthetizer.rs:27-29 | a hex digit (`0-9`, `a-f`, `A-F`) has a value below 16; any other character has none |
| Colors.Hex2RoundTrip | src/synesthetizer.rs:27-29 | `from_str_radix(_, 16)` reads back any byte written as two hex digits |
| Colors.EntryRoundTrip | src/synesthetizer.rs:26-30 | a colour written as `#rrggbb` parses back to its red, green and blue, with alpha 255 |
| Colors.FirstCharacterIgnored | src/synesthetizer.rs:27-29 | the first character of an entry is never read: replacing it does not change the result |
| Colors.EntryChannels | src/synesthetizer.rs:26-30 | an accepted entry has 7 characters and alpha 255; each channel written as two plain hex digits equals their base-16 value |
| Colors.TwoDigits | src/synesthetizer.rs:27-29 | what a two-character slice parses to: two hex digits give their value; a leading `+` gives the value of the second digit |
| Colors.PlusSignAccepted | src/synesthetizer.rs:27-29 | because `from_str_radix` skips a leading `+`, the entry `#+f+f+f` is accepted as (15, 15, 15) |
| Notes.DistFromRangeBounds | src/note.rs:174-182 | zero exactly when the value is inside the range or sits on an end that is not past the start |
| Notes.DistFromDegenerateRange | src/note.rs:174-182 | on `a..a` the distance is `abs(v - a)` |
| Notes.IncludeInRange | src/note.rs:184-192 | a value inside leaves the range unchanged; otherwise the start moves up to a value above it, or else the end moves down to a value below it; at most one bound moves, and a moved bound becomes the value |
| Notes.IncludeInFlippedRange | src/note.rs:184-192 | on a flipped range (`end <= start`), including a value gives the hull: start = max, end = min, still flipped |
| Notes.IncludeOutsideFlips | src/note.rs:184-196 | including a value outside the closed interval `[start, end]` of a proper range `start < end` flips it, so `range_len` turns negative |
| Notes.NoteState.Absorb | src/note.rs:95-101 | after an accepted bin, both ranges include the bin; the peak amplitude becomes the max; the peak pitch moves only when the bin is strictly louder |
| Notes.NoteState.Height | src/note.rs:139-141 | at least 3, and `ceil(amplitude * 100) + 3` while that fits a `u32` |
| Notes.NoteState.Width | src/note.rs:135-137 | even, at most 1666, and zero exactly when `amplitude * 100 > 2497` |
| Notes.NoteState.Y | src/note.rs:147-149 | the glyph row is 450, the middle of the 900-pixel frame |
| Notes.NoteState.ColorIndices | src/note.rs:152-163 | both palette slots are valid indices (below 12) |
| Notes.NoteState.Paint | src/note.rs:107-133 | a zero-width glyph draws nothing; otherwise exactly one glyph of the note's width and height, centred at (`x`, `y`), in the note's colour, goes over the image |
| Notes.NewNoteFacts | src/note.rs:60-67 | a new note is valid; its ranges contain nothing; its distance to a MIDI number is the plain distance to its own |
| Notes.AbsorbKeepsValid | src/note.rs:95-101 | absorbing keeps both ranges flipped and covering the peak; each range becomes the hull with the bin's value |
| Notes.FlippedRangeTest | src/note.rs:86-92 | on a flipped range, `dist + range_len > limit` holds exactly when the new spread exceeds the limit plus twice the old spread |
| Notes.AcceptanceRule | src/note.rs:85-105 | a valid note accepts a bin exactly when, for both MIDI and amplitude, new spread - 2 * old spread <= limit |
| Notes.NewNoteAccepts | src/note.rs:85-92 | a fresh note accepts exactly the bins within 1.0 MIDI and 0.25 amplitude of its own |
| Notes.SpreadExceedsLimit | src/note.rs:85-105 | bins at MIDI 0, 1 and 3 are all accepted into one note, whose MIDI spread reaches 3.0 |
| Notes.ColorIndicesByPitchClass | src/note.rs:151-163 | for a non-negative MIDI number the slots are `floor(midi) mod 12` and the next slot round the circle (the same slot on a whole pitch class); a negative MIDI number reads slot 0 twice |
| Notes.ConcertA | src/note.rs:143-165 | a peak at MIDI 69 is drawn at x = 869 and reads slot 9 twice with blend fraction 0 |
| Notes.XOnFrame | src/note.rs:143-145 | for MIDI numbers 0..=127 the glyph centre lies on the 1600-pixel frame |
| Notes.Note.constructor | src/note.rs:60-67 | the peak is the given bin; both ranges are the degenerate range at the bin's values |
| Notes.Note.TryInclude | src/note.rs:85-105 | `Err` exactly when the MIDI test or the amplitude test exceeds its limit, and then nothing changes; on `Ok` the note absorbs the bin; the peak amplitude never decreases |
| Sorting.InsertBySorted | src/synesthetizer.rs:184 | inserting into a sorted sequence keeps it sorted |
| Sorting.SortBy | src/synesthetizer.rs:184 | the result is sorted ascending by the key and is a permutation of the input |
| Sorting.SortByStable | src/synesthetizer.rs:184 | for every key, the elements carrying it keep their relative order |
| Sorting.SortBySorted | src/synesthetizer.rs:184 | sorting an already sorted sequence changes nothing |
| Sorting.SortByElements | src/synesthetizer.rs:184 | sorting keeps exactly the elements it was given |
| Clustering.ClosestIndexNearest | src/synesthetizer.rs:172-175 | the chosen note is nearest in `distance_from_midi`, and every note before it is strictly farther (ties go to the first, as `min_by` does) |
| Clustering.Cluster | src/synesthetizer.rs:169-182 | the loop makes at most one note per bin, and none exactly when the spectrum is empty |
| Clustering.ClusterNotes | src/synesthetizer.rs:169-182 | every note the loop builds is valid, and every note's peak is one of the bins |
| Clustering.ClusterSnoc | src/synesthetizer.rs:169-182 | the loop handles the bins one at a time, in order |
| Clustering.Tones | src/synesthetizer.rs:166-185 | the notes of `find_tones` are sorted by ascending peak amplitude and are a permutation of the clustered notes |
| Clustering.TonesStable | src/synesthetizer.rs:184 | notes of equal peak amplitude keep the order in which the loop created them |
| Clustering.AbsorbWidens | src/note.rs:95-96 | absorbing a bin makes a note's ranges cover that bin and never uncovers a bin covered before |
| Clustering.StepCovers | src/synesthetizer.rs:172-181 | one loop step covers its own bin and keeps covered every bin that was covered |
| Clustering.ClusterCoversBins | src/synesthetizer.rs:169-182 | no bin is lost: each bin lies within the ranges of some note |
| Synesthetizer.HalvingHelps | src/synesthetizer.rs:72-75 | halving a frame rate brings it closer to 12 exactly when the rate is above 16 |
| Synesthetizer.DoublingImprovesIff | src/synesthetizer.rs:72-75 | the loop test of `load_music` holds exactly when the sample rate exceeds 16 blocks |
| Synesthetizer.ChosenBlockUnique | src/synesthetizer.rs:65-80 | at most one block size meets what `load_music` guarantees |
| Synesthetizer.CommonRates | src/synesthetizer.rs:65-80 | at 44100 Hz and at 48000 Hz the block is 4096 samples |
| Synesthetizer.Resize | src/synesthetizer.rs:162 | the result has the target length, keeps the prefix, and pads with zeros |
| Synesthetizer.SampleSlice | src/synesthetizer.rs:151-159 | at most one block of consecutive samples from the start sample; empty exactly when the block size is 0 or the start is past the end; a full block whenever the song has one |
| Synesthetizer.FrameSamplesPadding | src/synesthetizer.rs:153-162 | with a window that keeps lengths, the block has the block size and is 0.0 past the copied samples; at or past the end of the song it is all 0.0 |
| Synesthetizer.PaintAllOnTop | src/synesthetizer.rs:118-120 | painting the notes keeps the canvas underneath every glyph |
| Synesthetizer.PaintAllCount | src/synesthetizer.rs:118-120 | painting adds one glyph per note of non-zero width |
| Synesthetizer.Place | src/synesthetizer.rs:172-181 | one loop iteration: the notes then hold one more clustering step; existing notes stay in order; the notes stay distinct; a new note is fresh and appended |
| Synesthetizer.GatherNotes | src/synesthetizer.rs:167-182 | the loop of `find_tones` leaves freshly allocated notes holding `Cluster(spectrum)` |
| Synesthetizer.SortNotes | src/synesthetizer.rs:184 | the reordered notes hold the stable sort of the note values by peak amplitude, and are a rearrangement of the input note objects |
| Synesthetizer.PaintNotes | src/synesthetizer.rs:118-120 | the painting loop paints the current notes in order: `PaintAll` of their values |
| Synesthetizer.Synesthetizer.constructor | src/synesthetizer.rs:47-59 | block size 0, empty buffers, blank kept image, overlay off, no snapshot request |
| Synesthetizer.Synesthetizer.ClearOverlay | src/synesthetizer.rs:61-63 | the kept image becomes blank; nothing else changes |
| Synesthetizer.Synesthetizer.LoadMusic | src/synesthetizer.rs:65-84 | the block size is the `ChosenBlock` for the sample rate; doubling it would not help; the previous size was still improving; the sample buffer is emptied |
| Synesthetizer.Synesthetizer.RequestSnapshot | src/synesthetizer.rs:86-89 | the request holds the path; nothing else changes |
| Synesthetizer.Synesthetizer.UpdateSamples | src/synesthetizer.rs:148-163 | the buffer is the windowed sample slice, resized to the block size; every sample past the copied ones is 0.0 |
| Synesthetizer.Synesthetizer.FindTones | src/synesthetizer.rs:166-185 | the current notes are new objects holding exactly `Tones(spectrum)`; the other fields are unchanged |
| Synesthetizer.Synesthetizer.NewFrame | src/synesthetizer.rs:91-145 | see "new_frame" below |
| ControlPanel.DecimalRoundTrip | src/control_panel.rs:165 | the decimal notation of a number reads back as that number |
| ControlPanel.Decimal | src/control_panel.rs:165 | `{}` of a number is a non-empty string of digits, one digit exactly below 10 and at most two below 100, with no leading `0` from 10 up |
| ControlPanel.Pad2 | src/control_panel.rs:165 | `{:02}` gives at least two digits, exactly two below 100, reading back as the number, with no leading `0` from 10 up |
| ControlPanel.SecondsField | src/control_panel.rs:164 | the seconds field is always below 60, whatever the input |
| ControlPanel.SecondsFieldWhole | src/control_panel.rs:164 | for non-negative input the seconds field is the whole seconds mod 60 |
| ControlPanel.LabelFields | src/control_panel.rs:165 | the label splits back into its two padded fields around the `:` |
| ControlPanel.FormatMinSec | src/control_panel.rs:162-166 | digits, `:`, then two digits reading below 60 |
| ControlPanel.FormatMinSecFields | src/control_panel.rs:163-165 | below 2^32 seconds the fields read back as `floor(s) div 60` and `floor(s) mod 60` |
| ControlPanel.FormatMinSecSaturates | src/control_panel.rs:163-164 | from 2^32 seconds on, the minutes stay at `u32::MAX / 60` while the seconds field still follows the input |
| ControlPanel.FormatMinSecWholeSeconds | src/control_panel.rs:162-166 | for non-negative input only `floor(s)` matters |
| ControlPanel.FormatMinSecLength | src/control_panel.rs:163-165 | under 6000 s the label is exactly 5 characters with `:` in the middle |
| ControlPanel.FormatMinSecNegative | src/control_panel.rs:163-164 | a negative time saturates both casts and gives `00:00` |
| ControlPanel.FormatMinSecHour | src/control_panel.rs:163 | 3600 s reads `60:00`: minutes are not wrapped into hours |

### new_frame

`Synesthetizer.Synesthetizer.NewFrame` ensures the following:

- The block size is unchanged, the invariant `Valid` is kept, and the overlay
  flag follows the setting.
- The canvas is the kept image when overlay mode was on and stays on, and blank
  otherwise.
- When nothing plays, the frame is that canvas, and the buffer and the notes
  are untouched.
- When music plays:
  - the buffer is `FrameSamples` of the music;
  - the notes hold `Tones` of the spectrum;
  - the frame is the canvas with the notes painted over it in order.
- The kept image is the frame in overlay mode, and blank otherwise.
- A pending snapshot request is answered with the frame and cleared.

## Left out

- `Pitch::from_frequency` is not part of this model. A spectrum is taken to be
  a sequence of bins that already carry their pitch and amplitude.
- The FFT (`samples_fft_to_spectrum`, with its frequency limits and scaling)
  and `hann_window` are parameters of `NewFrame` and `UpdateSamples`.
  - The model assumes that the FFT returns a spectrum for every block whose
    length is a power of two, whatever the sample rate. The source passes the
    sample rate and the frequency limits `C0_FREQ..A8_FREQ` as well; whether
    the spectrum library refuses some of those inputs is not part of this
    model, and neither is the `unwrap` that would then fail.
  - The window is assumed to return as many samples as it is given, as a
    Hann window does (`KeepsLength`).
- `Music` is a value: sample rate, the left channel of each frame's mono mix,
  the position and the stopped flag. Playback, decoding and the `as_mono`
  downmix are not part of this model.
  - A paused song is not stopped, so `new_frame` still analyses it, as in the
    source.
- Pixels are not modelled. The image is the blank canvas plus the sequence of
  glyphs composited onto it. Out of scope:
  - `draw_polygon_mut`, `imageops::overlay`, and clipping at the frame edge;
  - colour interpolation (`pixelops::interpolate` and the darkening by
    `sqrt(amplitude)`). A glyph records the two palette colours, the fraction
    and the amplitude that feed them.
- The conversion to `egui::ColorImage` is left out.
- The palette YAML file and its deserialisation are left out.
  `Synesthetizer.Synesthetizer.constructor` takes the palette that
  `Colors.FromHex` returns. The `assert_eq!`/`unwrap` panics of `from_hex`
  become `Failure` values.
  - All of an entry's channel failures are reported as one fault, `NotHex`,
    where the source panics at the first bad channel.
  - Strings are taken to be ASCII. A byte slice that cuts a multi-byte
    character panics in the source; this is not modelled.
- Writing a snapshot to disk is an out-parameter `written` of `NewFrame`. A
  failing write (`unwrap`) and the log messages are not modelled.
- Floating point: `f32`/`f64` are exact reals.
  - Rounding of products and quotients is not modelled.
  - NaN and infinities are not modelled.
  - The `total_cmp` order between `-0.0` and `+0.0` is not modelled. The
    model compares reals, where the two zeros are one value.
- `Notes.NoteState.Height`: the `u32` addition `+ 3` is taken without
  overflow. In the source it overflows for every amplitude above
  `(u32::MAX - 3) / 100` (about 4.3e7), up to infinity, because
  `ceil(amplitude * 100) as u32` saturates at `u32::MAX`.
  - A debug build panics on that overflow.
  - A release build wraps to a height of 0, 1 or 2. A height of 0 divides by
    zero in `width` (src/note.rs:136). Heights 1 and 2 give glyphs 5000 and
    2500 pixels wide. The model gives a height of at least 3 and a width of 0
    there, so it draws nothing.
- `Synesthetizer.StartSample`: the `usize` addition `start + samples_per_frame`
  in `update_samples` is taken without overflow.
- `Notes.NoteState.Paint`: the `i32` subtractions giving the glyph's corner are
  taken without overflow.
- `Notes.NoteState.X`: it has no contract of its own. Its value is stated by
  `Notes.ConcertA` and bounded by `Notes.XOnFrame` for MIDI numbers 0..=127.
- `Notes.RangeLen`, `Notes.NoteState.DistanceFromMidi`, `Notes.NewNote`,
  `Notes.NoteState.Diatonic` and `Notes.NoteState.Color`: they carry no
  contract of their own. Their properties are stated by
  `Notes.IncludeOutsideFlips`, `Notes.NewNoteFacts`, `Notes.Note.constructor`
  and `Notes.ColorIndicesByPitchClass`.
- `Notes.Contains`: it carries no contract of its own. It is `Range::contains`,
  the half-open test `start <= v < end`, so `a..a` and reversed ranges contain
  nothing. Its effect is stated by `Notes.DistFromRangeBounds` (which includes
  the zero set), `Notes.IncludeInRange`, `Notes.IncludeInFlippedRange` and
  `Notes.NewNoteFacts`.
- `Notes.NoteState.Accepts`: it carries no contract of its own. It is the
  rejection test of `try_include` (src/note.rs:85-92), negated. It is
  characterised by `Notes.FlippedRangeTest`, `Notes.AcceptanceRule` and
  `Notes.NewNoteAccepts`, and it decides the outcome of `Notes.Note.TryInclude`
  and `Clustering.Cluster`.
- `Synesthetizer.Synesthetizer.Playing`: it carries no contract of its own. It
  is the guard `MusicState::Loaded(music) if !music.is_stopped()` of
  `new_frame` (src/synesthetizer.rs:108). What each branch does is stated by
  `Synesthetizer.Synesthetizer.NewFrame`.
- `Clustering.Step`: it carries no contract of its own. Its properties are
  stated by `Clustering.ClusterSnoc`, `Clustering.StepCovers`,
  `Clustering.ClusterNotes` and `Synesthetizer.Place`.
- `Colors.ParseEntry`: it carries no contract of its own. Its properties are
  stated by `Colors.EntryRoundTrip`, `Colors.EntryChannels`,
  `Colors.FirstCharacterIgnored` and `Colors.FromHex`.
- `Colors.FromStrRadix16`: it carries no contract of its own. Its properties
  are stated by `Colors.Hex2RoundTrip`, `Colors.TwoDigits` and
  `Colors.PlusSignAccepted`.
- `Synesthetizer.FrameSamples`: it carries no contract of its own. Its
  properties are stated by `Synesthetizer.FrameSamplesPadding`,
  `Synesthetizer.SampleSlice`, `Synesthetizer.Resize` and
  `Synesthetizer.Synesthetizer.UpdateSamples`.
- `Synesthetizer.PaintAll`: it carries no contract of its own. Its properties
  are stated by `Synesthetizer.PaintAllOnTop`, `Synesthetizer.PaintAllCount`
  and `Synesthetizer.PaintNotes`.
- `Synesthetizer.FrameRateError` and `Synesthetizer.DoublingImproves`: they
  carry no contract of their own. The loop test is characterised by
  `Synesthetizer.DoublingImprovesIff` and used by
  `Synesthetizer.Synesthetizer.LoadMusic`.
- `ControlPanel.Label`: it carries no contract of its own. Its shape is stated
  by `ControlPanel.LabelFields`.
- `Clustering.ClosestIndex`: its contract states only that the index is valid.
  Nearest-first is stated by `Clustering.ClosestIndexNearest`.
- The `find_tones` loop is split into the methods `Synesthetizer.Place`,
  `Synesthetizer.PlaceNext` and `Synesthetizer.GatherNotes`, and its sort into
  `Synesthetizer.SortNotes`. `Synesthetizer.Synesthetizer.FindTones` calls
  them in the source's order.
  - The notes are rebuilt as a new sequence rather than cleared and pushed
    into the same `Vec`, whose capacity is not modelled.
- Logging, the GUI (`app.rs`, `control_panel.rs` apart from `format_min_sec`,
  `settings_window.rs`, `style.rs`) and `main.rs` are not part of this model.

=== FILE: clustering.dfy ===
/**
 * The tone clustering of `find_tones`, on note values: each spectral bin goes to
 * the note closest to it in MIDI, which absorbs it or, on refusal, leaves it to
 * start a new note; the notes are then ordered by peak amplitude.
 */
module Clustering {
  import opened Notes
  import opened Sorting

  /** One entry of the spectrum: a pitch and its (scaled) amplitude. */
  datatype Bin = Bin(pitch: Pitch, amplitude: real)

  /** The sort key of `find_tones`: the peak amplitude. */
  function Amplitude(n: NoteState): real {
    n.peakAmplitude
  }

  /** The note `min_by` picks: the first of those nearest to `midi` by
      `distance_from_midi` (lemma `ClosestIndexNearest`). */
  function ClosestIndex(notes: seq<NoteState>, midi: real): (i: nat)
    requires |notes| > 0
    ensures i < |notes|
  {
    if |notes| == 1 then 0
    else
      var i := ClosestIndex(notes[..|notes| - 1], midi);
      if notes[|notes| - 1].DistanceFromMidi(midi) < notes[i].DistanceFromMidi(midi) then |notes| - 1 else i
  }

  /** No note is nearer than the chosen one, and every note before it is
      strictly farther: ties go to the earliest note. */
  lemma {:induction false} ClosestIndexNearest(notes: seq<NoteState>, midi: real)
    requires |notes| > 0
    ensures var i := ClosestIndex(notes, midi);
      (forall j :: 0 <= j < |notes| ==> notes[i].DistanceFromMidi(midi) <= notes[j].DistanceFromMidi(midi)) &&
      (forall j :: 0 <= j < i ==> notes[j].DistanceFromMidi(midi) > notes[i].DistanceFromMidi(midi))
  {
    if |notes| > 1 {
      var prefix := notes[..|notes| - 1];
      ClosestIndexNearest(prefix, midi);
      assert forall j :: 0 <= j < |prefix| ==> prefix[j] == notes[j];
    }
  }

  /** One pass of the loop body: with no notes yet, or when the closest note
      refuses the bin, a new note is appended; otherwise the closest note absorbs
      the bin in place. */
  function Step(notes: seq<NoteState>, b: Bin): seq<NoteState> {
    if notes == [] then [NewNote(b.pitch, b.amplitude)]
    else
      var i := ClosestIndex(notes, b.pitch.midi);
      if notes[i].Accepts(b.pitch, b.amplitude) then notes[i := notes[i].Absorb(b.pitch, b.amplitude)]
      else notes + [NewNote(b.pitch, b.amplitude)]
  }

  /** The notes after the loop over `bins`, before sorting: never more notes than
      bins, and none exactly when there are no bins. */
  function Cluster(bins: seq<Bin>): (r: seq<NoteState>)
    ensures |r| <= |bins|
    ensures r == [] <==> bins == []
  {
    if bins == [] then []
    else Step(Cluster(bins[..|bins| - 1]), bins[|bins| - 1])
  }

  /** Every clustered note keeps the note invariant, and every peak is one of the
      bins. */
  lemma {:induction false} ClusterNotes(bins: seq<Bin>)
    ensures forall n :: n in Cluster(bins) ==> n.Valid()
    ensures forall n :: n in Cluster(bins) ==> Bin(n.peakPitch, n.peakAmplitude) in bins
    decreases |bins|
  {
    if bins != [] {
      var prefix := bins[..|bins| - 1];
      var b := bins[|bins| - 1];
      var notes := Cluster(prefix);
      ClusterNotes(prefix);
      assert forall x :: x in prefix ==> x in bins;
      NewNoteFacts(b.pitch, b.amplitude, 0.0);
      if notes != [] {
        var i := ClosestIndex(notes, b.pitch.midi);
        AbsorbKeepsValid(notes[i], b.pitch, b.amplitude);
      }
    }
  }

  /** The loop takes the bins one at a time, in order. */
  lemma ClusterSnoc(bins: seq<Bin>, b: Bin)
    ensures Cluster(bins + [b]) == Step(Cluster(bins), b)
  {
    assert (bins + [b])[..|bins|] == bins;
  }

  /** `find_tones` on values: the clustered notes, sorted stably by ascending peak
      amplitude. */
  function Tones(bins: seq<Bin>): (r: seq<NoteState>)
    ensures SortedBy(r, Amplitude)
    ensures multiset(r) == multiset(Cluster(bins))
  {
    SortBy(Cluster(bins), Amplitude)
  }

  /** The sort is stable: notes of equal peak amplitude keep the order in which
      the loop created them. */
  lemma TonesStable(bins: seq<Bin>, amplitude: real)
    ensures KeyFilter(Tones(bins), Amplitude, amplitude) == KeyFilter(Cluster(bins), Amplitude, amplitude)
  {
    SortByStable(Cluster(bins), Amplitude, amplitude);
  }

  /** A note covers a bin when both of its flipped ranges reach over the bin's
      values. */
  predicate Covers(n: NoteState, b: Bin) {
    && n.midiRange.end <= b.pitch.midi <= n.midiRange.start
    && n.ampRange.end <= b.amplitude <= n.ampRange.start
  }

  /** Absorbing a bin only widens a valid note's ranges. */
  lemma AbsorbWidens(n: NoteState, b: Bin, c: Bin)
    requires n.Valid()
    ensures Covers(n.Absorb(b.pitch, b.amplitude), b)
    ensures Covers(n, c) ==> Covers(n.Absorb(b.pitch, b.amplitude), c)
  {
    AbsorbKeepsValid(n, b.pitch, b.amplitude);
  }

  /** Some note of `notes` covers `b`. */
  predicate Covered(notes: seq<NoteState>, b: Bin) {
    exists j :: 0 <= j < |notes| && Covers(notes[j], b)
  }

  /** One step covers its own bin and keeps every bin covered that was. */
  lemma StepCovers(notes: seq<NoteState>, b: Bin, c: Bin)
    requires forall n :: n in notes ==> n.Valid()
    ensures Covered(Step(notes, b), b)
    ensures Covered(notes, c) ==> Covered(Step(notes, b), c)
  {
    var r := Step(notes, b);
    var single := NewNote(b.pitch, b.amplitude);
    assert Covers(single, b);
    if notes == [] {
      assert Covers(r[0], b);
    } else {
      var i := ClosestIndex(notes, b.pitch.midi);
      AbsorbWidens(notes[i], b, c);
      if notes[i].Accepts(b.pitch, b.amplitude) {
        assert Covers(r[i], b);
        if Covered(notes, c) {
          var j :| 0 <= j < |notes| && Covers(notes[j], c);
          assert Covers(r[j], c);
        }
      } else {
        assert Covers(r[|notes|], b);
        if Covered(notes, c) {
          var j :| 0 <= j < |notes| && Covers(notes[j], c);
          assert Covers(r[j], c);
        }
      }
    }
  }

  /** No bin is lost: every bin lies within the ranges of some note. */
  lemma {:induction false} ClusterCoversBins(bins: seq<Bin>)
    ensures forall k :: 0 <= k < |bins| ==> Covered(Cluster(bins), bins[k])
    decreases |bins|
  {
    if bins != [] {
      var prefix := bins[..|bins| - 1];
      var b := bins[|bins| - 1];
      ClusterCoversBins(prefix);
      ClusterNotes(prefix);
      forall k | 0 <= k < |bins|
        ensures Covered(Cluster(bins), bins[k])
      {
        StepCovers(Cluster(prefix), b, bins[k]);
        if k < |bins| - 1 {
          assert bins[k] == prefix[k];
        }
      }
    }
  }
}

=== FILE: colors.dfy ===
/**
 * The colour palette: twelve opaque RGBA colours, one per pitch class, read
 * from a list of `#RRGGBB` strings (the six-digit hex notation of CSS Color
 * Module Level 4, section 5.2). Strings are taken to be ASCII, so one `char`
 * is one byte and a byte slice `s[1..3]` is a character slice.
 */
module Colors {
  import opened Wrappers

  type Byte = n: int | 0 <= n < 256

  datatype Rgba = Rgba(r: Byte, g: Byte, b: Byte, a: Byte)

  const WHITE: Rgba := Rgba(255, 255, 255, 255)

  /** `[Rgba<u8>; 12]`: one colour per pitch class, C first. */
  type Palette = p: seq<Rgba> | |p| == 12
    witness [WHITE, WHITE, WHITE, WHITE, WHITE, WHITE, WHITE, WHITE, WHITE, WHITE, WHITE, WHITE]

  /** Why one entry of the list could not be read. */
  datatype EntryFault = WrongLength(length: nat) | NotHex

  /** The panics of the palette loader, as values. */
  datatype PaletteError = WrongCount(count: nat) | BadEntry(index: nat, fault: EntryFault)

  /** `char::to_digit(16)`: the value of one hexadecimal digit, either case. */
  function HexDigit(c: char): (d: Option<nat>)
    ensures d.Some? ==> d.value < 16
    ensures d.Some? <==> '0' <= c <= '9' || 'a' <= c <= 'f' || 'A' <= c <= 'F'
  {
    if '0' <= c <= '9' then Some(c as int - '0' as int)
    else if 'a' <= c <= 'f' then Some(c as int - 'a' as int + 10)
    else if 'A' <= c <= 'F' then Some(c as int - 'A' as int + 10)
    else None
  }

  /** The base-16 value of a string made only of hex digits (most significant first). */
  function DigitsValue(ds: string): Option<nat>
  {
    if ds == [] then Some(0)
    else
      match (DigitsValue(ds[..|ds| - 1]), HexDigit(ds[|ds| - 1]))
      case (Some(v), Some(d)) => Some(v * 16 + d)
      case _ => None
  }

  /**
   * `u8::from_str_radix(s, 16)`: an empty string, a lone sign or a non-digit is
   * an error; one leading `+` is skipped (a `-` is not, an unsigned type has no
   * negative values); a value above 255 overflows.
   */
  function FromStrRadix16(s: string): Option<Byte>
  {
    if s == [] then None
    else if (s[0] == '+' || s[0] == '-') && |s| == 1 then None
    else
      var digits := if s[0] == '+' then s[1..] else s;
      match DigitsValue(digits)
      case Some(v) => if v < 256 then Some(v) else None
      case None => None
  }

  /** One palette entry: exactly seven characters, the first one never read,
      then two hex digits each for red, green and blue; alpha is opaque. */
  function ParseEntry(s: string): Result<Rgba, EntryFault>
  {
    if |s| != 7 then Failure(WrongLength(|s|))
    else
      match (FromStrRadix16(s[1..3]), FromStrRadix16(s[3..5]), FromStrRadix16(s[5..7]))
      case (Some(r), Some(g), Some(b)) => Success(Rgba(r, g, b, 255))
      case _ => Failure(NotHex)
  }

  /**
   * `from_hex`: the list must hold exactly twelve entries, each readable by
   * `ParseEntry`; the colours are filled into a twelve-slot array, in order.
   * The first entry that cannot be read is the one reported.
   */
  method FromHex(list: seq<string>) returns (r: Result<Palette, PaletteError>)
    ensures r.Success? <==> |list| == 12 && forall i :: 0 <= i < |list| ==> ParseEntry(list[i]).Success?
    ensures r.Success? ==> forall i :: 0 <= i < 12 ==> r.value[i] == ParseEntry(list[i]).value
    ensures |list| != 12 ==> r == Failure(WrongCount(|list|))
    ensures r.Failure? && |list| == 12 ==>
      && r.error.BadEntry?
      && r.error.index < 12
      && ParseEntry(list[r.error.index]) == Failure(r.error.fault)
      && forall j :: 0 <= j < r.error.index ==> ParseEntry(list[j]).Success?
  {
    if |list| != 12 {
      return Failure(WrongCount(|list|));
    }
    var colors := new Rgba[12](_ => WHITE);
    var idx := 0;
    while idx < |list|
      invariant 0 <= idx <= 12
      invariant forall j :: 0 <= j < idx ==> ParseEntry(list[j]).Success? && colors[j] == ParseEntry(list[j]).value
    {
      var entry := ParseEntry(list[idx]);
      if entry.Failure? {
        return Failure(BadEntry(idx, entry.error));
      }
      colors[idx] := entry.value;
      idx := idx + 1;
    }
    return Success(colors[..]);
  }

  /** The lower-case hex digit of a value below 16. */
  function HexChar(d: nat): (c: char)
    requires d < 16
    ensures HexDigit(c) == Some(d)
  {
    if d < 10 then ('0' as int + d) as char else ('a' as int + d - 10) as char
  }

  /** Two hex digits for one byte, high nibble first. */
  function Hex2(b: Byte): (s: string)
    ensures |s| == 2
  {
    [HexChar(b / 16), HexChar(b % 16)]
  }

  /** The `#rrggbb` notation of a colour's red, green and blue. */
  function ToHex(c: Rgba): (s: string)
    ensures |s| == 7 && s[0] == '#'
  {
    "#" + Hex2(c.r) + Hex2(c.g) + Hex2(c.b)
  }

  /** Reading back two hex digits gives the byte that was written. */
  lemma Hex2RoundTrip(b: Byte)
    ensures FromStrRadix16(Hex2(b)) == Some(b)
  {
    var s := Hex2(b);
    assert s[0] != '+' && s[0] != '-';
    assert s[..1] == [s[0]];
    assert DigitsValue(s[..1]) == Some(b / 16) by {
      assert s[..1][..0] == [];
    }
    assert DigitsValue(s) == Some(b / 16 * 16 + b % 16);
  }

  /** Writing a colour as `#rrggbb` and reading it back yields its red, green and
      blue with an opaque alpha. */
  lemma EntryRoundTrip(c: Rgba)
    ensures ParseEntry(ToHex(c)) == Success(Rgba(c.r, c.g, c.b, 255))
  {
    var s := ToHex(c);
    var r, g, b := Hex2(c.r), Hex2(c.g), Hex2(c.b);
    assert s == ['#', r[0], r[1], g[0], g[1], b[0], b[1]];
    assert s[1..3] == Hex2(c.r);
    assert s[3..5] == Hex2(c.g);
    assert s[5..7] == Hex2(c.b);
    Hex2RoundTrip(c.r);
    Hex2RoundTrip(c.g);
    Hex2RoundTrip(c.b);
  }

  /** The first character of an entry is never inspected: `#`, or anything else,
      gives the same result. */
  lemma FirstCharacterIgnored(s: string, c: char)
    requires |s| > 0
    ensures ParseEntry([c] + s[1..]) == ParseEntry(s)
  {
    var t := [c] + s[1..];
    if |s| == 7 {
      assert t[1..3] == s[1..3] && t[3..5] == s[3..5] && t[5..7] == s[5..7];
    }
  }

  /** A read entry is opaque, and each channel made of two plain hex digits is
      their base-16 value. */
  lemma EntryChannels(s: string)
    requires ParseEntry(s).Success?
    ensures |s| == 7 && ParseEntry(s).value.a == 255
    ensures s[1] != '+' ==>
      && HexDigit(s[1]).Some? && HexDigit(s[2]).Some?
      && ParseEntry(s).value.r == HexDigit(s[1]).value * 16 + HexDigit(s[2]).value
    ensures s[3] != '+' ==>
      && HexDigit(s[3]).Some? && HexDigit(s[4]).Some?
      && ParseEntry(s).value.g == HexDigit(s[3]).value * 16 + HexDigit(s[4]).value
    ensures s[5] != '+' ==>
      && HexDigit(s[5]).Some? && HexDigit(s[6]).Some?
      && ParseEntry(s).value.b == HexDigit(s[5]).value * 16 + HexDigit(s[6]).value
  {
    TwoDigits(s[1..3]);
    TwoDigits(s[3..5]);
    TwoDigits(s[5..7]);
  }

  /** What `FromStrRadix16` accepts in a two-character string. */
  lemma TwoDigits(p: string)
    requires |p| == 2
    ensures p[0] != '+' && FromStrRadix16(p).Some? ==>
      && HexDigit(p[0]).Some? && HexDigit(p[1]).Some?
      && FromStrRadix16(p).value == HexDigit(p[0]).value * 16 + HexDigit(p[1]).value
    ensures p[0] == '+' ==> FromStrRadix16(p) == HexDigit(p[1])
  {
    if p[0] == '+' {
      var q := p[1..];
      assert q[..0] == [];
      assert DigitsValue(q) == if HexDigit(q[0]).Some? then Some(HexDigit(q[0]).value) else None;
    } else {
      assert p[..1] == [p[0]];
      assert p[..1][..0] == [];
      assert DigitsValue(p[..1]) == if HexDigit(p[0]).Some? then Some(HexDigit(p[0]).value) else None;
    }
  }

  /** Because `from_str_radix` skips a leading `+`, an entry such as `#+f+f+f`
      is accepted, each `+f` read as 15. */
  lemma PlusSignAccepted()
    ensures ParseEntry("#+f+f+f") == Success(Rgba(15, 15, 15, 255))
  {
    TwoDigits("+f");
    assert "#+f+f+f"[1..3] == "+f" && "#+f+f+f"[3..5] == "+f" && "#+f+f+f"[5..7] == "+f";
  }
}

=== FILE: control_panel.dfy ===
/**
 * The play-time label of the control panel: a position or length in seconds
 * written as `MM:SS`, each field a decimal number zero-padded to at least two
 * digits. The minutes are not wrapped into hours.
 */
module ControlPanel {
  import opened Float

  predicate AllDigits(s: string) {
    forall i :: 0 <= i < |s| ==> '0' <= s[i] <= '9'
  }

  function DigitChar(d: nat): (c: char)
    requires d < 10
    ensures '0' <= c <= '9'
    ensures c as int - '0' as int == d
  {
    ('0' as int + d) as char
  }

  /** The decimal notation of `n` with no leading zero, as `{}` prints it. */
  function Decimal(n: nat): (s: string)
    ensures |s| >= 1 && AllDigits(s)
    ensures n < 10 <==> |s| == 1
    ensures n < 100 ==> |s| <= 2
    ensures n >= 10 ==> s[0] != '0'
  {
    if n < 10 then [DigitChar(n)] else Decimal(n / 10) + [DigitChar(n % 10)]
  }

  /** Reads a string of decimal digits back as a number. */
  function ParseDecimal(s: string): nat
    requires AllDigits(s)
  {
    if s == [] then 0
    else ParseDecimal(s[..|s| - 1]) * 10 + (s[|s| - 1] as int - '0' as int)
  }

  lemma {:induction false} DecimalRoundTrip(n: nat)
    ensures ParseDecimal(Decimal(n)) == n
  {
    if n >= 10 {
      var s := Decimal(n);
      assert s[..|s| - 1] == Decimal(n / 10);
      DecimalRoundTrip(n / 10);
    }
  }

  /** `{:02}`: the decimal notation, left-padded with `0` to two characters. */
  function Pad2(n: nat): (s: string)
    ensures AllDigits(s) && |s| >= 2
    ensures n < 100 ==> |s| == 2
    ensures ParseDecimal(s) == n
    ensures n >= 10 ==> s[0] != '0'
  {
    DecimalRoundTrip(n);
    if n < 10 then
      var s := ['0'] + Decimal(n);
      assert s[..1] == ['0'];
      s
    else Decimal(n)
  }

  /** The seconds field: the float remainder by 60 cast to `u32`, always a
      valid count of seconds. */
  function SecondsField(seconds: real): (n: nat)
    ensures n < 60
  {
    var m := FMod(seconds, 60);
    assert Trunc(m) < 60;
    AsU32(m)
  }

  /** `{minutes:02}:{seconds:02}`. */
  function Label(minutes: nat, secs: nat): string {
    Pad2(minutes) + ":" + Pad2(secs)
  }

  /** A label splits back into its two fields around the `:` three characters
      from its end. */
  lemma LabelFields(minutes: nat, secs: nat)
    requires secs < 100
    ensures var r := Label(minutes, secs);
      |r| >= 5 && r[|r| - 3] == ':' && r[..|r| - 3] == Pad2(minutes) && r[|r| - 2..] == Pad2(secs)
  {
    var r := Label(minutes, secs);
    assert r[..|r| - 3] == Pad2(minutes);
    assert r[|r| - 2..] == Pad2(secs);
  }

  /** `format_min_sec`: the minutes are the seconds cast to `u32` (truncated,
      clamped to the `u32` range) divided by 60, the seconds field is the float
      remainder by 60 cast to `u32`. The label is the minutes, a `:`, and two
      digits reading below 60. */
  function FormatMinSec(seconds: real): (r: string)
    ensures |r| >= 5 && r[|r| - 3] == ':'
    ensures AllDigits(r[..|r| - 3]) && AllDigits(r[|r| - 2..])
    ensures ParseDecimal(r[|r| - 2..]) < 60
  {
    LabelFields(AsU32(seconds) / 60, SecondsField(seconds));
    Label(AsU32(seconds) / 60, SecondsField(seconds))
  }

  /** For non-negative input the seconds field is the whole seconds modulo 60. */
  lemma SecondsFieldWhole(seconds: real)
    requires 0.0 <= seconds
    ensures SecondsField(seconds) == Floor(seconds) % 60
  {
    FModNonNegative(seconds, 60);
  }

  /** The fields read back from the label: below 2^32 seconds the minutes are
      the whole seconds divided by 60 and the seconds field is the whole seconds
      modulo 60. */
  lemma FormatMinSecFields(seconds: real)
    requires 0.0 <= seconds < (U32_MAX + 1) as real
    ensures var r := FormatMinSec(seconds);
      ParseDecimal(r[..|r| - 3]) == Floor(seconds) / 60 &&
      ParseDecimal(r[|r| - 2..]) == Floor(seconds) % 60
  {
    SecondsFieldWhole(seconds);
    assert AsU32(seconds) == Floor(seconds);
    LabelFields(AsU32(seconds) / 60, SecondsField(seconds));
  }

  /** Beyond the `u32` range the minutes stick at `u32::MAX / 60` while the
      seconds field keeps following the input. */
  lemma FormatMinSecSaturates(seconds: real)
    requires seconds >= (U32_MAX + 1) as real
    ensures var r := FormatMinSec(seconds);
      ParseDecimal(r[..|r| - 3]) == U32_MAX / 60 &&
      ParseDecimal(r[|r| - 2..]) == Floor(seconds) % 60
  {
    SecondsFieldWhole(seconds);
    assert AsU32(seconds) == U32_MAX;
    LabelFields(AsU32(seconds) / 60, SecondsField(seconds));
  }

  /** For non-negative input only the whole seconds matter. */
  lemma FormatMinSecWholeSeconds(a: real, b: real)
    requires 0.0 <= a && 0.0 <= b && Floor(a) == Floor(b)
    ensures FormatMinSec(a) == FormatMinSec(b)
  {
    SecondsFieldWhole(a);
    SecondsFieldWhole(b);
  }

  /** Under 100 minutes the label is exactly `MM:SS`. */
  lemma FormatMinSecLength(seconds: real)
    requires 0.0 <= seconds < 6000.0
    ensures |FormatMinSec(seconds)| == 5 && FormatMinSec(seconds)[2] == ':'
  {
    FModNonNegative(seconds, 60);
  }

  /** A negative time saturates both casts to zero. */
  lemma FormatMinSecNegative(seconds: real)
    requires seconds < 0.0
    ensures FormatMinSec(seconds) == "00:00"
  {
    assert AsU32(seconds) == 0;
    assert SecondsField(seconds) == 0;
    assert Pad2(0) == "00";
  }

  /** An hour is sixty minutes, not `1:00:00`. */
  lemma FormatMinSecHour()
    ensures FormatMinSec(3600.0) == "60:00"
  {
    FModNonNegative(3600.0, 60);
    assert Floor(3600.0) == 3600;
    assert SecondsField(3600.0) == 0;
    assert AsU32(3600.0) / 60 == 60;
    assert Decimal(60) == Decimal(6) + ['0'];
    assert Pad2(60) == "60" && Pad2(0) == "00";
  }
}

=== FILE: float.dfy ===
/**
 * Rust's floating-point rounding, remainder and `as` casts, written out over
 * `real`. Rounding error of `f32`/`f64` arithmetic is not modelled; what is
 * modelled is the behaviour of each operation on exact values: `floor`, `ceil`,
 * `round` (half away from zero), `%` (truncating remainder, like C's `fmod`)
 * and the saturating float-to-integer cast (truncate toward zero, clamp to the
 * target type).
 */
module Float {

  const U32_MAX: nat := 0xFFFF_FFFF
  const USIZE_MAX: nat := 0xFFFF_FFFF_FFFF_FFFF
  const I32_MIN: int := -0x8000_0000
  const I32_MAX: int := 0x7FFF_FFFF

  function Abs(x: real): real { if x < 0.0 then -x else x }

  function Max(x: real, y: real): real { if x < y then y else x }

  function Min(x: real, y: real): real { if x < y then x else y }

  /** `f.floor()`, the largest integer not above `x`. */
  function Floor(x: real): (n: int)
    ensures n as real <= x < n as real + 1.0
  {
    x.Floor
  }

  /** `f.ceil()`, the smallest integer not below `x`. */
  function Ceil(x: real): (n: int)
    ensures n as real - 1.0 < x <= n as real
  {
    -((-x).Floor)
  }

  /** `f.trunc()`, rounding toward zero. */
  function Trunc(x: real): (n: int)
    ensures 0.0 <= x ==> n == Floor(x)
    ensures x < 0.0 ==> n == Ceil(x)
  {
    if x >= 0.0 then Floor(x) else Ceil(x)
  }

  /** `f.round()`: to the nearest integer, halves away from zero. */
  function RoundHalfAway(x: real): (n: int)
    ensures Abs(x - n as real) <= 0.5
    ensures Abs(x - n as real) == 0.5 ==> (x >= 0.0 ==> n as real > x) && (x < 0.0 ==> n as real < x)
  {
    if x >= 0.0 then Floor(x + 0.5) else -Floor(-x + 0.5)
  }

  /**
   * `x % m` on floats, for a positive whole divisor `m` (every use here divides
   * by 12, 60 or 1). Rust's float remainder truncates: it keeps the sign of `x`,
   * is smaller than `m` in magnitude and differs from `x` by a whole multiple of
   * `m`, which the postconditions state and which determine it uniquely. It is
   * computed from the whole and fractional parts of `|x|`.
   */
  function FMod(x: real, m: nat): (r: real)
    requires m > 0
    ensures 0.0 <= x ==> 0.0 <= r < m as real
    ensures x < 0.0 ==> -(m as real) < r <= 0.0
    ensures exists k: int :: x - r == (k * m) as real
    decreases if x < 0.0 then 1 else 0
  {
    if 0.0 <= x then
      var n := Floor(x);
      assert x - ((x - n as real) + (n % m) as real) == ((n / m) * m) as real;
      (x - n as real) + (n % m) as real
    else
      var r' := FMod(-x, m);
      var k :| -x - r' == (k * m) as real;
      assert x - -r' == ((-k) * m) as real;
      -r'
  }

  /** For a non-negative dividend the float remainder is the Euclidean one:
      its whole part is `floor(x) mod m` and it keeps the fractional part of `x`. */
  lemma FModNonNegative(x: real, m: nat)
    requires 0.0 <= x && m > 0
    ensures Floor(FMod(x, m)) == Floor(x) % m
    ensures FMod(x, m) - Floor(FMod(x, m)) as real == x - Floor(x) as real
  {
  }

  /** Clamp an integer into `0..=max`, as a saturating cast does. */
  function Saturate(n: int, max: nat): (r: nat)
    ensures r <= max
    ensures 0 <= n <= max ==> r == n
  {
    if n < 0 then 0 else if n > max then max else n
  }

  /** `x as u32` for a float `x`. */
  function AsU32(x: real): (n: nat)
    ensures n <= U32_MAX
    ensures 0.0 <= x < (U32_MAX + 1) as real ==> n == Floor(x)
    ensures x < 1.0 ==> n == 0
    ensures x >= U32_MAX as real ==> n == U32_MAX
  {
    Saturate(Trunc(x), U32_MAX)
  }

  /** `x as usize` for a float `x` (64-bit target). */
  function AsUsize(x: real): (n: nat)
    ensures n <= USIZE_MAX
    ensures 0.0 <= x < (USIZE_MAX + 1) as real ==> n == Floor(x)
    ensures x < 1.0 ==> n == 0
    ensures x >= USIZE_MAX as real ==> n == USIZE_MAX
  {
    Saturate(Trunc(x), USIZE_MAX)
  }

  /** `x as i32` for a float `x`. */
  function AsI32(x: real): (n: int)
    ensures I32_MIN <= n <= I32_MAX
    ensures I32_MIN as real - 1.0 < x < (I32_MAX + 1) as real ==> n == Trunc(x)
    ensures x <= I32_MIN as real ==> n == I32_MIN
    ensures x >= I32_MAX as real ==> n == I32_MAX
  {
    var t := Trunc(x);
    if t < I32_MIN then I32_MIN else if t > I32_MAX then I32_MAX else t
  }

}

=== FILE: note.dfy ===
/**
 * Pitches and notes. A note is the accumulator the tone clusterer builds from
 * spectral bins: it remembers its loudest bin (the peak) and two ranges, one of
 * amplitudes and one of MIDI numbers, that bins are tested against and folded
 * into. It is also drawn: a diamond whose size follows its peak amplitude,
 * placed by its peak MIDI number and coloured from the palette by pitch class.
 */
module Notes {
  import opened Wrappers
  import opened Float
  import opened Colors

  const MAX_MIDI_RANGE: real := 1.0
  const MAX_AMPLITUDE_RANGE: real := 0.25

  const FRAME_WIDTH: nat := 1600
  const FRAME_HEIGHT: nat := 900

  /** A frequency in Hz with its continuous MIDI number (69 is A4, 440 Hz). */
  datatype Pitch = Pitch(frequency: real, midi: real)

  /** `Range<f32>`: the half-open interval `start..end`. */
  datatype Range = Range(start: real, end: real)

  datatype SoundInclusionError = SoundInclusionError

  /** `Range::contains`: `start <= v < end`, so `a..a` contains nothing. */
  predicate Contains(r: Range, v: real) {
    r.start <= v < r.end
  }

  function RangeLen(r: Range): real {
    r.end - r.start
  }

  /**
   * `dist_from_range_bounds`: zero inside the range, otherwise the distance to
   * the FAR bound (`v - start` above the start, `end - v` at or below it). It is
   * zero exactly inside the range or when `v` sits on an end that is not past
   * the start.
   */
  function DistFromRangeBounds(v: real, r: Range): (d: real)
    ensures d == 0.0 <==> Contains(r, v) || (v <= r.start && v == r.end)
  {
    if Contains(r, v) then 0.0
    else if v > r.start then v - r.start
    else r.end - v
  }

  /**
   * `include_in_range`: a value outside the range replaces the start when it is
   * above the start, otherwise the end when it is below the end. At most one
   * bound moves, and a moved bound becomes `v`.
   */
  function IncludeInRange(v: real, r: Range): (r': Range)
    ensures Contains(r, v) ==> r' == r
    ensures r'.start == r.start || r'.end == r.end
    ensures !Contains(r, v) && v > r.start ==> r'.start == v
    ensures !Contains(r, v) && v <= r.start && v < r.end ==> r'.end == v
    ensures r'.start != r.start ==> r'.start == v && v > r.start
    ensures r'.end != r.end ==> r'.end == v && v <= r.start && v < r.end
  {
    if !Contains(r, v) then
      if v > r.start then Range(v, r.end)
      else if v < r.end then Range(r.start, v)
      else r
    else r
  }

  /** The ranges notes actually hold: the start is the largest value folded in and
      the end the smallest, so `start >= end`, `contains` never holds and
      `range_len` is the negated width. */
  predicate Flipped(r: Range) {
    r.end <= r.start
  }

  /** The spread of the values a flipped range has seen. */
  function Spread(r: Range): real {
    r.start - r.end
  }

  /** The flipped range covering `r` and `v`. */
  function Hull(r: Range, v: real): Range {
    Range(Max(r.start, v), Min(r.end, v))
  }

  /** On a degenerate range `a..a` the distance is `|v - a|`. */
  lemma DistFromDegenerateRange(v: real, a: real)
    ensures DistFromRangeBounds(v, Range(a, a)) == Abs(v - a)
  {
  }

  /** On a flipped range `include_in_range` computes the hull: the start keeps the
      maximum and the end the minimum. */
  lemma IncludeInFlippedRange(v: real, r: Range)
    requires Flipped(r)
    ensures IncludeInRange(v, r) == Hull(r, v)
    ensures Flipped(IncludeInRange(v, r))
  {
  }

  /** Any value outside a proper range `start < end` turns it into a flipped one. */
  lemma IncludeOutsideFlips(v: real, r: Range)
    requires r.start < r.end && !(r.start <= v <= r.end)
    ensures IncludeInRange(v, r).start > IncludeInRange(v, r).end
    ensures RangeLen(IncludeInRange(v, r)) < 0.0
  {
  }

  /** A glyph's colour: the two palette entries around its pitch class, the
      fraction between them and its amplitude, which the blending library turns
      into one RGBA value. */
  datatype Tint = Tint(ceil: Rgba, floor: Rgba, fractional: real, amplitude: real)

  /** A diamond of `width` x `height` pixels whose bounding box has its top-left
      corner at (`left`, `top`). */
  datatype Glyph = Glyph(left: int, top: int, width: nat, height: nat, tint: Tint)

  /** A frame, as the fully transparent blank canvas and the glyphs composited
      onto it in order. */
  datatype Image = Blank | Drawn(under: Image, glyph: Glyph)

  /** The value of a `Note`: its peak and its two ranges. */
  datatype NoteState = NoteState(peakPitch: Pitch, peakAmplitude: real, ampRange: Range, midiRange: Range)
  {
    /** `distance_from_midi`. */
    function DistanceFromMidi(midi: real): real {
      DistFromRangeBounds(midi, midiRange)
    }

    /** The test of `try_include`: false exactly when it returns `Err`. */
    predicate Accepts(pitch: Pitch, amplitude: real) {
      !(DistFromRangeBounds(pitch.midi, midiRange) + RangeLen(midiRange) > MAX_MIDI_RANGE
        || DistFromRangeBounds(amplitude, ampRange) + RangeLen(ampRange) > MAX_AMPLITUDE_RANGE)
    }

    /** The state `try_include` leaves after an accepted bin: both ranges take the
        bin in, and the peak moves to the bin only when the bin is strictly louder. */
    function Absorb(pitch: Pitch, amplitude: real): (n: NoteState)
      ensures n.peakAmplitude == Max(peakAmplitude, amplitude)
      ensures n.peakPitch == if amplitude > peakAmplitude then pitch else peakPitch
      ensures n.ampRange == IncludeInRange(amplitude, ampRange)
      ensures n.midiRange == IncludeInRange(pitch.midi, midiRange)
    {
      var amps := IncludeInRange(amplitude, ampRange);
      var midis := IncludeInRange(pitch.midi, midiRange);
      if amplitude > peakAmplitude then NoteState(pitch, amplitude, amps, midis)
      else NoteState(peakPitch, peakAmplitude, amps, midis)
    }

    /** What every note keeps: both ranges flipped, each covering its peak value. */
    predicate Valid() {
      && Flipped(ampRange) && Flipped(midiRange)
      && ampRange.end <= peakAmplitude <= ampRange.start
      && midiRange.end <= peakPitch.midi <= midiRange.start
    }

    /** `height`: `ceil(amplitude * 100)` cast to `u32` (negatives saturate to 0),
        plus 3. */
    function Height(): (h: nat)
      ensures h >= 3
      ensures peakAmplitude >= 0.0 && peakAmplitude * 100.0 <= U32_MAX as real ==>
        h == Ceil(peakAmplitude * 100.0) + 3
    {
      AsU32(Ceil(peakAmplitude * 100.0) as real) + 3
    }

    /** `width`: `(2500 / height) * 2`. Always even and at most 1666; zero, so that
        nothing is painted, exactly when the amplitude exceeds 24.97. */
    function Width(): (w: nat)
      ensures w % 2 == 0 && w <= 1666
      ensures w == 0 <==> peakAmplitude * 100.0 > 2497.0
    {
      var h := Height();
      QuotientBounds(h);
      (2500 / h) * 2
    }

    /** `x`: the peak MIDI number scaled onto the frame width, rounded. */
    function X(): int {
      AsI32(RoundHalfAway(FRAME_WIDTH as real * (peakPitch.midi / 127.0)) as real)
    }

    /** `y`: the vertical centre of the frame. */
    function Y(): (y: int)
      ensures y == 450
    {
      AsI32(RoundHalfAway(FRAME_HEIGHT as real / 2.0) as real)
    }

    /** The position within the octave, `midi % 12` (a float remainder). */
    function Diatonic(): real {
      FMod(peakPitch.midi, 12)
    }

    /** The palette slots `color` reads: `floor(diatonic)` and `ceil(diatonic)`
        with 12 taken back to 0, each cast to `usize`. Both are valid indices. */
    function ColorIndices(): (idx: (nat, nat))
      ensures idx.0 < 12 && idx.1 < 12
    {
      var d := Diatonic();
      var c := AsUsize(Ceil(d) as real);
      (AsUsize(Floor(d) as real), if c == 12 then 0 else c)
    }

    /** `color`, up to the blending: the palette entries at the two indices, the
        fractional part of the pitch class and the amplitude. */
    function Color(palette: Palette): Tint {
      var idx := ColorIndices();
      Tint(palette[idx.1], palette[idx.0], FMod(Diatonic(), 1), peakAmplitude)
    }

    /** `paint`: nothing is drawn when the glyph has no width or height; otherwise
        a glyph of that size, centred at (`x`, `y`), goes on top of `image`. */
    function Paint(image: Image, palette: Palette): (r: Image)
      ensures Width() == 0 ==> r == image
      ensures Width() > 0 ==>
        && r.Drawn? && r.under == image
        && r.glyph.width == Width() && r.glyph.height == Height()
        && r.glyph.left + Width() / 2 == X() && r.glyph.top + Height() / 2 == Y()
        && r.glyph.tint == Color(palette)
    {
      var w := Width();
      var h := Height();
      if w == 0 || h == 0 then image
      else Drawn(image, Glyph(X() - w / 2, Y() - h / 2, w, h, Color(palette)))
    }
  }

  /** The quotient `2500 / h` for a height of at least 3. */
  lemma QuotientBounds(h: nat)
    requires h >= 3
    ensures 2500 / h <= 833
    ensures 2500 / h == 0 <==> h > 2500
  {
    var q := 2500 / h;
    assert q * h <= 2500;
    if h <= 2500 {
      assert q >= 1;
    }
  }

  /** `Note::new`: the peak is the bin and both ranges are the degenerate range at
      the bin's value. */
  function NewNote(pitch: Pitch, amplitude: real): NoteState {
    NoteState(pitch, amplitude, Range(amplitude, amplitude), Range(pitch.midi, pitch.midi))
  }

  /** A new note keeps the invariant; its ranges contain nothing and its distance
      to a MIDI number is the plain distance to its own. */
  lemma NewNoteFacts(pitch: Pitch, amplitude: real, midi: real)
    ensures NewNote(pitch, amplitude).Valid()
    ensures !Contains(NewNote(pitch, amplitude).midiRange, midi)
    ensures !Contains(NewNote(pitch, amplitude).ampRange, midi)
    ensures NewNote(pitch, amplitude).DistanceFromMidi(midi) == Abs(midi - pitch.midi)
  {
    DistFromDegenerateRange(midi, pitch.midi);
  }

  /** Absorbing a bin keeps the invariant: the ranges become the hulls with the
      bin's values, which cover the (possibly new) peak. */
  lemma AbsorbKeepsValid(n: NoteState, pitch: Pitch, amplitude: real)
    requires n.Valid()
    ensures n.Absorb(pitch, amplitude).Valid()
    ensures n.Absorb(pitch, amplitude).midiRange == Hull(n.midiRange, pitch.midi)
    ensures n.Absorb(pitch, amplitude).ampRange == Hull(n.ampRange, amplitude)
  {
    IncludeInFlippedRange(pitch.midi, n.midiRange);
    IncludeInFlippedRange(amplitude, n.ampRange);
  }

  /** The test `dist + range_len > limit` on a flipped range, restated: it fails
      exactly when the new spread exceeds the limit plus twice the old spread. */
  lemma FlippedRangeTest(r: Range, v: real, limit: real)
    requires Flipped(r) && limit >= 0.0
    ensures DistFromRangeBounds(v, r) + RangeLen(r) > limit <==>
      Spread(Hull(r, v)) - 2.0 * Spread(r) > limit
  {
    if v > r.start {
      assert DistFromRangeBounds(v, r) + RangeLen(r) == Spread(Hull(r, v)) - 2.0 * Spread(r);
    } else if v < r.end {
      assert DistFromRangeBounds(v, r) + RangeLen(r) == Spread(Hull(r, v)) - 2.0 * Spread(r);
    } else {
      assert DistFromRangeBounds(v, r) + RangeLen(r) <= 0.0;
      assert Spread(Hull(r, v)) - 2.0 * Spread(r) <= 0.0;
    }
  }

  /** The acceptance rule of `try_include` on any note: a bin is accepted exactly
      when, for MIDI and for amplitude, the spread after taking it in is at most
      the limit plus twice the spread before. The spread is therefore NOT kept
      within the limit. */
  lemma AcceptanceRule(n: NoteState, pitch: Pitch, amplitude: real)
    requires n.Valid()
    ensures n.Accepts(pitch, amplitude) <==>
      && Spread(Hull(n.midiRange, pitch.midi)) - 2.0 * Spread(n.midiRange) <= MAX_MIDI_RANGE
      && Spread(Hull(n.ampRange, amplitude)) - 2.0 * Spread(n.ampRange) <= MAX_AMPLITUDE_RANGE
  {
    FlippedRangeTest(n.midiRange, pitch.midi, MAX_MIDI_RANGE);
    FlippedRangeTest(n.ampRange, amplitude, MAX_AMPLITUDE_RANGE);
  }

  /** A fresh note accepts a bin exactly when the bin is within 1.0 in MIDI and
      within 0.25 in amplitude of the note's own bin. */
  lemma NewNoteAccepts(pitch: Pitch, amplitude: real, other: Pitch, otherAmplitude: real)
    ensures NewNote(pitch, amplitude).Accepts(other, otherAmplitude) <==>
      Abs(other.midi - pitch.midi) <= MAX_MIDI_RANGE && Abs(otherAmplitude - amplitude) <= MAX_AMPLITUDE_RANGE
  {
    NewNoteFacts(pitch, amplitude, other.midi);
    AcceptanceRule(NewNote(pitch, amplitude), other, otherAmplitude);
  }

  /** Three bins at MIDI 0, 1 and 3 (same amplitude) all join one note, whose MIDI
      spread ends at 3.0: three times the limit. */
  lemma SpreadExceedsLimit()
    ensures NewNote(Pitch(8.18, 0.0), 0.5).Accepts(Pitch(8.66, 1.0), 0.5)
    ensures NewNote(Pitch(8.18, 0.0), 0.5).Absorb(Pitch(8.66, 1.0), 0.5).Accepts(Pitch(9.72, 3.0), 0.5)
    ensures Spread(NewNote(Pitch(8.18, 0.0), 0.5).Absorb(Pitch(8.66, 1.0), 0.5).Absorb(Pitch(9.72, 3.0), 0.5).midiRange) == 3.0
  {
    var n0 := NewNote(Pitch(8.18, 0.0), 0.5);
    assert n0 == NoteState(Pitch(8.18, 0.0), 0.5, Range(0.5, 0.5), Range(0.0, 0.0));
    assert DistFromRangeBounds(1.0, n0.midiRange) == 1.0;
    assert DistFromRangeBounds(0.5, n0.ampRange) == 0.0;
    var n1 := n0.Absorb(Pitch(8.66, 1.0), 0.5);
    assert n1 == NoteState(Pitch(8.18, 0.0), 0.5, Range(0.5, 0.5), Range(1.0, 0.0));
    assert DistFromRangeBounds(3.0, n1.midiRange) == 2.0;
    assert DistFromRangeBounds(0.5, n1.ampRange) == 0.0;
    var n2 := n1.Absorb(Pitch(9.72, 3.0), 0.5);
    assert n2.midiRange == Range(3.0, 0.0);
  }

  /** For a non-negative MIDI number the palette slots are the pitch class and the
      next one round the circle (the same one when the pitch class is whole); a
      negative MIDI number reads slot 0 twice. */
  lemma ColorIndicesByPitchClass(n: NoteState)
    ensures n.peakPitch.midi >= 0.0 ==>
      && n.ColorIndices().0 == Floor(n.peakPitch.midi) % 12
      && n.ColorIndices().1 ==
           if n.peakPitch.midi == Floor(n.peakPitch.midi) as real then n.ColorIndices().0
           else (n.ColorIndices().0 + 1) % 12
    ensures n.peakPitch.midi < 0.0 ==> n.ColorIndices() == (0, 0)
  {
    var m := n.peakPitch.midi;
    var d := n.Diatonic();
    if m >= 0.0 {
      FModNonNegative(m, 12);
      assert Floor(d) == Floor(m) % 12;
      if m != Floor(m) as real {
        assert d != Floor(d) as real;
        assert Ceil(d) == Floor(d) + 1;
      } else {
        assert d == Floor(d) as real;
        assert Ceil(d) == Floor(d);
      }
    }
  }

  /** The glyph for a peak at A4 (MIDI 69) is drawn at x = 869 and reads palette
      slot 9 (A) twice, with no blending fraction. */
  lemma ConcertA(n: NoteState)
    requires n.peakPitch.midi == 69.0
    ensures n.X() == 869
    ensures n.ColorIndices() == (9, 9)
    ensures n.Color(WHITE_PALETTE).fractional == 0.0
  {
    ColorIndicesByPitchClass(n);
    assert Floor(69.0) == 69;
    FModNonNegative(69.0, 12);
    assert Floor(n.Diatonic()) == 9;
    assert n.Diatonic() == 9.0;
    assert FMod(9.0, 1) == 0.0 by { FModNonNegative(9.0, 1); }
  }

  const WHITE_PALETTE: Palette :=
    [WHITE, WHITE, WHITE, WHITE, WHITE, WHITE, WHITE, WHITE, WHITE, WHITE, WHITE, WHITE]

  /** The x position stays on the frame for MIDI numbers 0 to 127. */
  lemma XOnFrame(n: NoteState)
    requires 0.0 <= n.peakPitch.midi <= 127.0
    ensures 0 <= n.X() <= FRAME_WIDTH
  {
  }

  /**
   * `Note`, the mutable accumulator. `try_include` updates its four fields in
   * place.
   */
  class Note {
    var peakPitch: Pitch
    var peakAmplitude: real
    var ampRange: Range
    var midiRange: Range

    /** The note's current value. */
    function State(): NoteState
      reads this
    {
      NoteState(peakPitch, peakAmplitude, ampRange, midiRange)
    }

    /** `Note::new`. */
    constructor (pitch: Pitch, amplitude: real)
      ensures State() == NewNote(pitch, amplitude)
      ensures peakPitch == pitch && peakAmplitude == amplitude
      ensures ampRange == Range(amplitude, amplitude) && midiRange == Range(pitch.midi, pitch.midi)
    {
      peakPitch := pitch;
      peakAmplitude := amplitude;
      ampRange := Range(amplitude, amplitude);
      midiRange := Range(pitch.midi, pitch.midi);
    }

    /** `try_include`: `Err` exactly when the MIDI test or the amplitude test
        exceeds its limit, and then nothing changes; on `Ok` the note absorbs the
        bin. */
    method TryInclude(pitch: Pitch, amplitude: real) returns (r: Result<(), SoundInclusionError>)
      modifies this
      ensures r.Failure? <==>
        || DistFromRangeBounds(pitch.midi, old(midiRange)) + RangeLen(old(midiRange)) > MAX_MIDI_RANGE
        || DistFromRangeBounds(amplitude, old(ampRange)) + RangeLen(old(ampRange)) > MAX_AMPLITUDE_RANGE
      ensures r.Success? <==> old(State()).Accepts(pitch, amplitude)
      ensures r.Failure? ==> State() == old(State())
      ensures r.Success? ==> State() == old(State()).Absorb(pitch, amplitude)
      ensures peakAmplitude >= old(peakAmplitude)
    {
      if DistFromRangeBounds(pitch.midi, midiRange) + RangeLen(midiRange) > MAX_MIDI_RANGE
        || DistFromRangeBounds(amplitude, ampRange) + RangeLen(ampRange) > MAX_AMPLITUDE_RANGE
      {
        r := Failure(SoundInclusionError);
      } else {
        ampRange := IncludeInRange(amplitude, ampRange);
        midiRange := IncludeInRange(pitch.midi, midiRange);
        if amplitude > peakAmplitude {
          peakAmplitude := amplitude;
          peakPitch := pitch;
        }
        r := Success(());
      }
    }
  }
}

=== FILE: sorting.dfy ===
/**
 * A stable sort by a real-valued key, standing for `slice::sort_by` with a
 * `total_cmp` comparator: the result is ascending, a permutation of the input,
 * and elements with equal keys keep their relative order.
 */
module Sorting {
  predicate SortedBy<T>(s: seq<T>, key: T -> real) {
    forall i, j :: 0 <= i < j < |s| ==> key(s[i]) <= key(s[j])
  }

  /** The elements of `s` whose key is `k`, in their order in `s`. */
  function KeyFilter<T>(s: seq<T>, key: T -> real, k: real): (r: seq<T>)
    ensures |r| <= |s|
  {
    if s == [] then []
    else (if key(s[0]) == k then [s[0]] else []) + KeyFilter(s[1..], key, k)
  }

  /** Inserts `x` before the first element of `s` whose key is not below its own. */
  function InsertBy<T>(x: T, s: seq<T>, key: T -> real): (r: seq<T>)
    ensures multiset(r) == multiset(s) + multiset{x}
    ensures |r| == |s| + 1
  {
    if s == [] || key(x) <= key(s[0]) then [x] + s
    else
      assert s == [s[0]] + s[1..];
      [s[0]] + InsertBy(x, s[1..], key)
  }

  /** Inserting into a sorted sequence keeps it sorted. */
  lemma {:induction false} InsertBySorted<T>(x: T, s: seq<T>, key: T -> real)
    requires SortedBy(s, key)
    ensures SortedBy(InsertBy(x, s, key), key)
    decreases |s|
  {
    if s != [] && key(x) > key(s[0]) {
      var t := InsertBy(x, s[1..], key);
      InsertBySorted(x, s[1..], key);
      forall j | 0 <= j < |t| ensures key(s[0]) <= key(t[j]) {
        assert t[j] in multiset(s[1..]) + multiset{x};
        if t[j] != x {
          assert t[j] in s[1..];
        }
      }
    }
  }

  /** Insertion sort: sorts the tail and inserts the head in front of its equals. */
  function SortBy<T>(s: seq<T>, key: T -> real): (r: seq<T>)
    ensures SortedBy(r, key)
    ensures multiset(r) == multiset(s)
    ensures |r| == |s|
  {
    if s == [] then []
    else
      assert s == [s[0]] + s[1..];
      InsertBySorted(s[0], SortBy(s[1..], key), key);
      InsertBy(s[0], SortBy(s[1..], key), key)
  }

  /** Inserting `x` adds it to the elements with its key exactly at the front. */
  lemma {:induction false} KeyFilterInsert<T>(x: T, s: seq<T>, key: T -> real, k: real)
    ensures KeyFilter(InsertBy(x, s, key), key, k) ==
      (if key(x) == k then [x] else []) + KeyFilter(s, key, k)
    decreases |s|
  {
    var head := if key(x) == k then [x] else [];
    if s == [] || key(x) <= key(s[0]) {
      assert InsertBy(x, s, key) == [x] + s;
      assert ([x] + s)[1..] == s;
    } else {
      var t := InsertBy(x, s[1..], key);
      assert InsertBy(x, s, key) == [s[0]] + t;
      assert ([s[0]] + t)[1..] == t;
      KeyFilterInsert(x, s[1..], key, k);
      var first := if key(s[0]) == k then [s[0]] else [];
      assert KeyFilter(s, key, k) == first + KeyFilter(s[1..], key, k);
      // `x` and `s[0]` have different keys, so at most one of them is kept
      assert first == [] || head == [];
    }
  }

  /** Stability: for every key, the elements carrying it appear in the sorted
      sequence in the same order as in the input. */
  lemma {:induction false} SortByStable<T>(s: seq<T>, key: T -> real, k: real)
    ensures KeyFilter(SortBy(s, key), key, k) == KeyFilter(s, key, k)
    decreases |s|
  {
    if s != [] {
      KeyFilterInsert(s[0], SortBy(s[1..], key), key, k);
      SortByStable(s[1..], key, k);
    }
  }

  /** Sorting a sorted sequence leaves it as it is. */
  lemma {:induction false} SortBySorted<T>(s: seq<T>, key: T -> real)
    requires SortedBy(s, key)
    ensures SortBy(s, key) == s
    decreases |s|
  {
    if s != [] {
      SortBySorted(s[1..], key);
      assert s == [s[0]] + s[1..];
    }
  }

  /** Sorting keeps exactly the elements it was given. */
  lemma SortByElements<T>(s: seq<T>, key: T -> real)
    ensures forall x :: x in SortBy(s, key) <==> x in s
  {
    var r := SortBy(s, key);
    forall x
      ensures x in r <==> x in s
    {
      assert x in r <==> x in multiset(r);
      assert x in s <==> x in multiset(s);
    }
  }
}

=== FILE: synesthetizer.dfy ===
/**
 * The synesthetizer: per displayed frame it cuts the next block of samples out of
 * the playing music, windows it, turns it into a spectrum, clusters the spectrum
 * into notes and paints the notes onto the frame, optionally on top of the
 * previous frames (overlay mode) and optionally writing the frame out as a
 * snapshot.
 */
module Synesthetizer {
  import opened Wrappers
  import opened Float
  import opened Colors
  import opened Notes
  import opened Sorting
  import opened Clustering

  const TARGET_FPS: real := 12.0

  /** A loaded song: its sample rate, its samples (each frame already reduced to
      the left channel of its mono mix), the playback position in seconds and
      whether playback has stopped. */
  datatype Music = Music(sampleRate: nat, frames: seq<real>, position: real, stopped: bool)

  /** The application's music slot. */
  datatype MusicState = Silence | Loading | Loaded(music: Music)

  /** The image written for a snapshot request, and where. */
  datatype Snapshot = Snapshot(path: string, image: Image)

  predicate IsPowerOfTwo(n: nat) {
    n == 1 || (n > 1 && n % 2 == 0 && IsPowerOfTwo(n / 2))
  }

  /** How far a block of `samplesPerFrame` samples puts the frame rate from the
      target. */
  function FrameRateError(sampleRate: nat, samplesPerFrame: nat): real
    requires samplesPerFrame > 0
  {
    Abs(sampleRate as real / samplesPerFrame as real - TARGET_FPS)
  }

  /** The loop test of `load_music`: doubling the block strictly improves the
      frame rate. */
  predicate DoublingImproves(sampleRate: nat, samplesPerFrame: nat)
    requires samplesPerFrame > 0
  {
    FrameRateError(sampleRate, samplesPerFrame * 2) < FrameRateError(sampleRate, samplesPerFrame)
  }

  /** On the frame rate itself: halving it helps exactly above 16. */
  lemma HalvingHelps(x: real)
    requires x >= 0.0
    ensures Abs(x / 2.0 - TARGET_FPS) < Abs(x - TARGET_FPS) <==> x > 16.0
  {
    var h := x / 2.0;
    assert x == 2.0 * h;
  }

  lemma DivAbove(a: real, b: real, c: real)
    requires b > 0.0
    ensures a / b > c <==> a > c * b
  {
    var q := a / b;
    assert q * b == a;
    if q > c {
      assert (q - c) * b > 0.0;
    } else {
      assert (c - q) * b >= 0.0;
    }
  }

  lemma RateAbove(sampleRate: nat, samplesPerFrame: nat)
    requires samplesPerFrame > 0
    ensures sampleRate as real / samplesPerFrame as real > 16.0 <==> sampleRate > 16 * samplesPerFrame
  {
    DivAbove(sampleRate as real, samplesPerFrame as real, 16.0);
    assert 16.0 * samplesPerFrame as real == (16 * samplesPerFrame) as real;
  }

  lemma HalfRate(sampleRate: nat, samplesPerFrame: nat)
    requires samplesPerFrame > 0
    ensures sampleRate as real / (samplesPerFrame * 2) as real == (sampleRate as real / samplesPerFrame as real) / 2.0
  {
    var s := samplesPerFrame as real;
    assert (samplesPerFrame * 2) as real == s * 2.0;
  }

  /** Doubling helps exactly while the frame rate is above 16 per second, that is
      while the sample rate exceeds 16 blocks. */
  lemma DoublingImprovesIff(sampleRate: nat, samplesPerFrame: nat)
    requires samplesPerFrame > 0
    ensures DoublingImproves(sampleRate, samplesPerFrame) <==> sampleRate > 16 * samplesPerFrame
  {
    HalfRate(sampleRate, samplesPerFrame);
    DivAbove(sampleRate as real, samplesPerFrame as real, -1.0);
    HalvingHelps(sampleRate as real / samplesPerFrame as real);
    RateAbove(sampleRate, samplesPerFrame);
  }

  /** The block size `load_music` settles on: the smallest power of two, at least
      2, that takes the frame rate to at most 16 per second. */
  predicate ChosenBlock(sampleRate: nat, samplesPerFrame: nat) {
    && samplesPerFrame >= 2 && IsPowerOfTwo(samplesPerFrame)
    && sampleRate <= 16 * samplesPerFrame
    && (samplesPerFrame == 2 || sampleRate > 8 * samplesPerFrame)
  }

  /** At most one block size qualifies. */
  lemma {:induction false} ChosenBlockUnique(sampleRate: nat, a: nat, b: nat)
    requires ChosenBlock(sampleRate, a) && ChosenBlock(sampleRate, b)
    ensures a == b
  {
    if a < b {
      PowerOfTwoGap(a, b);
    } else if b < a {
      PowerOfTwoGap(b, a);
    }
  }

  /** Between two distinct powers of two there is a factor of at least two. */
  lemma {:induction false} PowerOfTwoGap(a: nat, b: nat)
    requires IsPowerOfTwo(a) && IsPowerOfTwo(b) && a < b
    ensures 2 * a <= b
    decreases b
  {
    if a > 1 {
      PowerOfTwoGap(a / 2, b / 2);
    }
  }

  /** At CD quality (44100 Hz) and at 48000 Hz the block is 4096 samples. */
  lemma CommonRates()
    ensures ChosenBlock(44100, 4096) && ChosenBlock(48000, 4096)
  {
    assert IsPowerOfTwo(4096) by {
      assert IsPowerOfTwo(2);
      assert IsPowerOfTwo(4);
      assert IsPowerOfTwo(8);
      assert IsPowerOfTwo(16);
      assert IsPowerOfTwo(32);
      assert IsPowerOfTwo(64);
      assert IsPowerOfTwo(128);
      assert IsPowerOfTwo(256);
      assert IsPowerOfTwo(512);
      assert IsPowerOfTwo(1024);
      assert IsPowerOfTwo(2048);
    }
  }

  /** `Vec::resize(n, 0.0)`: truncate to `n`, or pad with zeros up to `n`. */
  function Resize(s: seq<real>, n: nat): (r: seq<real>)
    ensures |r| == n
    ensures forall k :: 0 <= k < n && k < |s| ==> r[k] == s[k]
    ensures forall k :: |s| <= k < n ==> r[k] == 0.0
  {
    if |s| >= n then s[..n] else s + seq(n - |s|, _ => 0.0)
  }

  /** The first sample of the block: the position in seconds times the sample
      rate, cast to `usize`. */
  function StartSample(music: Music): nat {
    AsUsize(music.position * music.sampleRate as real)
  }

  /** The samples `update_samples` copies: from the start sample up to a full
      block, never past the end of the song. */
  function SampleSlice(music: Music, samplesPerFrame: nat): (r: seq<real>)
    ensures |r| <= samplesPerFrame
    ensures r == [] <==> samplesPerFrame == 0 || StartSample(music) >= |music.frames|
    ensures StartSample(music) + samplesPerFrame <= |music.frames| ==> |r| == samplesPerFrame
    ensures forall k :: 0 <= k < |r| ==> StartSample(music) + k < |music.frames| && r[k] == music.frames[StartSample(music) + k]
  {
    var start := StartSample(music);
    var end := if start + samplesPerFrame < |music.frames| then start + samplesPerFrame else |music.frames|;
    if end > start then music.frames[start..end] else []
  }

  /** The analysed block: the windowed slice, padded with silence (or cut) to the
      block size. */
  function FrameSamples(music: Music, samplesPerFrame: nat, window: seq<real> -> seq<real>): seq<real> {
    Resize(window(SampleSlice(music, samplesPerFrame)), samplesPerFrame)
  }

  /** A window such as the Hann window returns as many samples as it is given. */
  ghost predicate KeepsLength(window: seq<real> -> seq<real>) {
    forall s: seq<real> :: |window(s)| == |s|
  }

  /** The block is the windowed slice followed by silence: every sample past the
      copied ones is 0.0, so at or past the end of the song the block is all
      zeros. */
  lemma FrameSamplesPadding(music: Music, samplesPerFrame: nat, window: seq<real> -> seq<real>)
    requires KeepsLength(window)
    ensures |FrameSamples(music, samplesPerFrame, window)| == samplesPerFrame
    ensures forall k :: |SampleSlice(music, samplesPerFrame)| <= k < samplesPerFrame ==>
      FrameSamples(music, samplesPerFrame, window)[k] == 0.0
    ensures StartSample(music) >= |music.frames| ==>
      forall k :: 0 <= k < samplesPerFrame ==> FrameSamples(music, samplesPerFrame, window)[k] == 0.0
  {
    assert |window(SampleSlice(music, samplesPerFrame))| == |SampleSlice(music, samplesPerFrame)|;
  }

  /** Paints notes one after the other, the first at the bottom. */
  function PaintAll(image: Image, notes: seq<NoteState>, palette: Palette): Image {
    if notes == [] then image
    else notes[|notes| - 1].Paint(PaintAll(image, notes[..|notes| - 1], palette), palette)
  }

  /** Painting onto a canvas keeps it underneath: every glyph is added on top. */
  lemma {:induction false} PaintAllOnTop(image: Image, notes: seq<NoteState>, palette: Palette, base: Image)
    requires image == base || Above(image, base)
    ensures PaintAll(image, notes, palette) == base || Above(PaintAll(image, notes, palette), base)
    decreases |notes|
  {
    if notes != [] {
      PaintAllOnTop(image, notes[..|notes| - 1], palette, base);
    }
  }

  /** `image` is `base` with at least one glyph drawn over it. */
  predicate Above(image: Image, base: Image) {
    image.Drawn? && (image.under == base || Above(image.under, base))
  }

  /** The number of glyphs composited into an image. */
  function Glyphs(image: Image): nat {
    if image.Blank? then 0 else 1 + Glyphs(image.under)
  }

  /** The number of notes whose glyph has a non-zero width. */
  function Visible(notes: seq<NoteState>): nat {
    if notes == [] then 0
    else Visible(notes[..|notes| - 1]) + (if notes[|notes| - 1].Width() > 0 then 1 else 0)
  }

  /** Painting adds one glyph per visible note and nothing for the others. */
  lemma {:induction false} PaintAllCount(image: Image, notes: seq<NoteState>, palette: Palette)
    ensures Glyphs(PaintAll(image, notes, palette)) == Glyphs(image) + Visible(notes)
    decreases |notes|
  {
    if notes != [] {
      PaintAllCount(image, notes[..|notes| - 1], palette);
    }
  }

  function PairAmplitude(p: (NoteState, Note)): real {
    p.0.peakAmplitude
  }

  function Firsts(ps: seq<(NoteState, Note)>): (r: seq<NoteState>)
    ensures |r| == |ps| && forall k :: 0 <= k < |ps| ==> r[k] == ps[k].0
  {
    seq(|ps|, k requires 0 <= k < |ps| => ps[k].0)
  }

  function Seconds(ps: seq<(NoteState, Note)>): (r: seq<Note>)
    ensures |r| == |ps| && forall k :: 0 <= k < |ps| ==> r[k] == ps[k].1
  {
    seq(|ps|, k requires 0 <= k < |ps| => ps[k].1)
  }

  function Zip(a: seq<NoteState>, b: seq<Note>): (r: seq<(NoteState, Note)>)
    requires |a| == |b|
    ensures |r| == |a| && forall k :: 0 <= k < |a| ==> r[k] == (a[k], b[k])
  {
    seq(|a|, k requires 0 <= k < |a| => (a[k], b[k]))
  }

  /** Sorting pairs by the amplitude of their first component sorts the first
      components as sorting them alone would. */
  lemma {:induction false} FirstsInsert(p: (NoteState, Note), ps: seq<(NoteState, Note)>)
    ensures Firsts(InsertBy(p, ps, PairAmplitude)) == InsertBy(p.0, Firsts(ps), Amplitude)
    decreases |ps|
  {
    if ps != [] && PairAmplitude(p) > PairAmplitude(ps[0]) {
      FirstsInsert(p, ps[1..]);
      assert Firsts(ps)[1..] == Firsts(ps[1..]);
    } else {
      assert Firsts([p] + ps) == [p.0] + Firsts(ps);
    }
  }

  lemma {:induction false} FirstsSort(ps: seq<(NoteState, Note)>)
    ensures Firsts(SortBy(ps, PairAmplitude)) == SortBy(Firsts(ps), Amplitude)
    decreases |ps|
  {
    if ps != [] {
      FirstsSort(ps[1..]);
      FirstsInsert(ps[0], SortBy(ps[1..], PairAmplitude));
      assert Firsts(ps)[1..] == Firsts(ps[1..]);
    }
  }

  /** The second components of `[p] + ps`, and of a non-empty sequence. */
  lemma SecondsCons(p: (NoteState, Note), ps: seq<(NoteState, Note)>)
    ensures Seconds([p] + ps) == [p.1] + Seconds(ps)
  {
  }

  lemma SecondsTail(ps: seq<(NoteState, Note)>)
    requires ps != []
    ensures Seconds(ps) == [ps[0].1] + Seconds(ps[1..])
  {
  }

  /** Sorting pairs rearranges their second components. */
  lemma {:induction false} SecondsInsert(p: (NoteState, Note), ps: seq<(NoteState, Note)>)
    ensures multiset(Seconds(InsertBy(p, ps, PairAmplitude))) == multiset(Seconds(ps)) + multiset{p.1}
    decreases |ps|
  {
    if ps != [] && PairAmplitude(p) > PairAmplitude(ps[0]) {
      var t := InsertBy(p, ps[1..], PairAmplitude);
      assert InsertBy(p, ps, PairAmplitude) == [ps[0]] + t;
      SecondsInsert(p, ps[1..]);
      SecondsTail(ps);
      SecondsCons(ps[0], t);
    } else {
      assert InsertBy(p, ps, PairAmplitude) == [p] + ps;
      SecondsCons(p, ps);
    }
  }

  lemma {:induction false} SecondsSort(ps: seq<(NoteState, Note)>)
    ensures multiset(Seconds(SortBy(ps, PairAmplitude))) == multiset(Seconds(ps))
    decreases |ps|
  {
    if ps != [] {
      var sorted := SortBy(ps[1..], PairAmplitude);
      assert SortBy(ps, PairAmplitude) == InsertBy(ps[0], sorted, PairAmplitude);
      SecondsSort(ps[1..]);
      SecondsInsert(ps[0], sorted);
      SecondsTail(ps);
    }
  }

  /** The values of a sequence of notes. */
  function States(ns: seq<Note>): (r: seq<NoteState>)
    reads ns
    ensures |r| == |ns| && forall k :: 0 <= k < |ns| ==> r[k] == ns[k].State()
  {
    seq(|ns|, k reads ns requires 0 <= k < |ns| => ns[k].State())
  }

  /** The notes `ns` hold the values `vs`, one for one. */
  predicate Holds(ns: seq<Note>, vs: seq<NoteState>)
    reads ns
  {
    |ns| == |vs| && forall k :: 0 <= k < |ns| ==> ns[k].State() == vs[k]
  }

  predicate Distinct(ns: seq<Note>) {
    forall a, b :: 0 <= a < b < |ns| ==> ns[a] != ns[b]
  }

  /** The body of the `find_tones` loop: the bin goes to the first closest note,
      which absorbs it in place, or starts a new note when there is none or it
      refuses. The notes keep their order and a new note is appended. */
  method Place(notes: seq<Note>, ghost before: seq<NoteState>, bin: Bin) returns (r: seq<Note>)
    requires Distinct(notes) && Holds(notes, before)
    modifies notes
    ensures Holds(r, Step(before, bin))
    ensures Distinct(r)
    ensures |r| == |notes| || |r| == |notes| + 1
    ensures forall k :: 0 <= k < |notes| ==> r[k] == notes[k]
    ensures |r| == |notes| + 1 ==> fresh(r[|notes|])
  {
    if notes == [] {
      var n := new Note(bin.pitch, bin.amplitude);
      r := [n];
    } else {
      assert States(notes) == before;
      var c := ClosestIndex(States(notes), bin.pitch.midi);
      var result := notes[c].TryInclude(bin.pitch, bin.amplitude);
      assert forall k :: 0 <= k < |notes| && k != c ==> notes[k].State() == before[k];
      if result.Failure? {
        var n := new Note(bin.pitch, bin.amplitude);
        r := notes + [n];
      } else {
        r := notes;
      }
    }
  }

  /** `Place` for the `i`-th bin of `spectrum`, stated on the prefixes. */
  method PlaceNext(notes: seq<Note>, spectrum: seq<Bin>, i: nat) returns (r: seq<Note>)
    requires i < |spectrum|
    requires Distinct(notes) && Holds(notes, Cluster(spectrum[..i]))
    modifies notes
    ensures Holds(r, Cluster(spectrum[..i + 1]))
    ensures Distinct(r)
    ensures |r| == |notes| || |r| == |notes| + 1
    ensures forall k :: 0 <= k < |notes| ==> r[k] == notes[k]
    ensures |r| == |notes| + 1 ==> fresh(r[|notes|])
  {
    assert spectrum[..i + 1] == spectrum[..i] + [spectrum[i]];
    ClusterSnoc(spectrum[..i], spectrum[i]);
    r := Place(notes, Cluster(spectrum[..i]), spectrum[i]);
  }

  /** `sort_by` on the notes' peak amplitudes: the notes are reordered so that
      their values come out as the stable sort of the values. */
  method SortNotes(notes: seq<Note>) returns (r: seq<Note>)
    ensures States(r) == SortBy(States(notes), Amplitude)
    ensures forall k :: 0 <= k < |r| ==> r[k] in notes
    ensures multiset(r) == multiset(notes)
  {
    var pairs := Zip(States(notes), notes);
    var sorted := SortBy(pairs, PairAmplitude);
    SortByElements(pairs, PairAmplitude);
    r := Seconds(sorted);
    forall k | 0 <= k < |r|
      ensures r[k].State() == sorted[k].0 && r[k] in notes
    {
      assert sorted[k] in pairs;
      var j :| 0 <= j < |pairs| && pairs[j] == sorted[k];
      assert sorted[k].0 == States(notes)[j];
    }
    assert States(r) == Firsts(sorted);
    assert Firsts(pairs) == States(notes);
    FirstsSort(pairs);
    SecondsSort(pairs);
    assert Seconds(pairs) == notes;
  }

  /** The loop of `find_tones`: the bins are placed one at a time, in order, into
      notes allocated along the way. */
  method GatherNotes(spectrum: seq<Bin>) returns (notes: seq<Note>)
    ensures forall k :: 0 <= k < |notes| ==> fresh(notes[k])
    ensures States(notes) == Cluster(spectrum)
  {
    notes := [];
    var i := 0;
    while i < |spectrum|
      invariant 0 <= i <= |spectrum|
      invariant forall k :: 0 <= k < |notes| ==> fresh(notes[k])
      invariant Distinct(notes)
      invariant Holds(notes, Cluster(spectrum[..i]))
    {
      notes := PlaceNext(notes, spectrum, i);
      i := i + 1;
    }
    assert spectrum[..|spectrum|] == spectrum;
    assert States(notes) == Cluster(spectrum);
  }

  /** The painting loop of `new_frame`: each note paints itself over the image,
      in order. */
  method PaintNotes(image: Image, notes: seq<Note>, palette: Palette) returns (r: Image)
    ensures r == PaintAll(image, States(notes), palette)
  {
    r := image;
    var i := 0;
    while i < |notes|
      invariant 0 <= i <= |notes|
      invariant r == PaintAll(image, States(notes)[..i], palette)
    {
      assert States(notes)[..i + 1][..i] == States(notes)[..i];
      r := notes[i].State().Paint(r, palette);
      i := i + 1;
    }
    assert States(notes)[..i] == States(notes);
  }

  class Synesthetizer {
    var samplesPerFrame: nat
    var currentFrame: seq<real>
    var currentNotes: seq<Note>
    const palette: Palette
    var previousImage: Image
    var isOverlay: bool
    var snapshotRequest: Option<string>

    /** The kept image is blank whenever overlay mode is off, and the block size
        is unset (0) or a power of two of at least 2. */
    predicate Valid()
      reads this
    {
      && (!isOverlay ==> previousImage == Blank)
      && (samplesPerFrame == 0 || (samplesPerFrame >= 2 && IsPowerOfTwo(samplesPerFrame)))
    }

    /** `Synesthetizer::new`, with the palette already parsed. */
    constructor (palette: Palette)
      ensures Valid()
      ensures samplesPerFrame == 0 && currentFrame == [] && currentNotes == []
      ensures this.palette == palette && previousImage == Blank
      ensures !isOverlay && snapshotRequest == None
    {
      samplesPerFrame := 0;
      currentFrame := [];
      currentNotes := [];
      this.palette := palette;
      previousImage := Blank;
      isOverlay := false;
      snapshotRequest := None;
    }

    /** `clear_overlay`: the kept image becomes blank. */
    method ClearOverlay()
      modifies this
      ensures previousImage == Blank
      ensures samplesPerFrame == old(samplesPerFrame) && currentFrame == old(currentFrame)
      ensures currentNotes == old(currentNotes) && isOverlay == old(isOverlay)
      ensures snapshotRequest == old(snapshotRequest)
      ensures old(Valid()) ==> Valid()
    {
      previousImage := Blank;
    }

    /** `load_music`: starting from 2, doubles the block size while that brings
        the frame rate closer to 12 per second, and empties the sample buffer. */
    method LoadMusic(sampleRate: nat)
      modifies this
      ensures ChosenBlock(sampleRate, samplesPerFrame)
      ensures !DoublingImproves(sampleRate, samplesPerFrame)
      ensures samplesPerFrame == 2 || DoublingImproves(sampleRate, samplesPerFrame / 2)
      ensures currentFrame == []
      ensures currentNotes == old(currentNotes) && previousImage == old(previousImage)
      ensures isOverlay == old(isOverlay) && snapshotRequest == old(snapshotRequest)
      ensures old(Valid()) ==> Valid()
    {
      samplesPerFrame := 2;
      assert IsPowerOfTwo(2) by { assert IsPowerOfTwo(1); }
      while true
        invariant samplesPerFrame >= 2 && IsPowerOfTwo(samplesPerFrame)
        invariant samplesPerFrame == 2 || sampleRate > 8 * samplesPerFrame
        invariant samplesPerFrame == 2 || DoublingImproves(sampleRate, samplesPerFrame / 2)
        invariant currentNotes == old(currentNotes) && previousImage == old(previousImage)
        invariant isOverlay == old(isOverlay) && snapshotRequest == old(snapshotRequest)
        decreases sampleRate - samplesPerFrame
      {
        DoublingImprovesIff(sampleRate, samplesPerFrame);
        if DoublingImproves(sampleRate, samplesPerFrame) {
          assert (samplesPerFrame * 2) / 2 == samplesPerFrame;
          samplesPerFrame := samplesPerFrame * 2;
        } else {
          break;
        }
      }
      currentFrame := [];
    }

    /** `request_snapshot`: the next frame will be written to `path`. */
    method RequestSnapshot(path: string)
      modifies this
      ensures snapshotRequest == Some(path)
      ensures samplesPerFrame == old(samplesPerFrame) && currentFrame == old(currentFrame)
      ensures currentNotes == old(currentNotes) && previousImage == old(previousImage)
      ensures isOverlay == old(isOverlay)
      ensures old(Valid()) ==> Valid()
    {
      snapshotRequest := Some(path);
    }

    /** `update_samples`: copies the next block of samples, applies the window and
        resizes the buffer to the block size. */
    method UpdateSamples(music: Music, window: seq<real> -> seq<real>)
      requires KeepsLength(window)
      modifies this
      ensures currentFrame == FrameSamples(music, samplesPerFrame, window)
      ensures |currentFrame| == samplesPerFrame
      ensures forall k :: |SampleSlice(music, samplesPerFrame)| <= k < samplesPerFrame ==> currentFrame[k] == 0.0
      ensures samplesPerFrame == old(samplesPerFrame) && currentNotes == old(currentNotes)
      ensures previousImage == old(previousImage) && isOverlay == old(isOverlay)
      ensures snapshotRequest == old(snapshotRequest)
    {
      currentFrame := [];
      var start := StartSample(music);
      var end := if start + samplesPerFrame < |music.frames| then start + samplesPerFrame else |music.frames|;
      if end > start {
        var i := start;
        while i < end
          invariant start <= i <= end
          invariant currentFrame == music.frames[start..i]
          invariant samplesPerFrame == old(samplesPerFrame) && currentNotes == old(currentNotes)
          invariant previousImage == old(previousImage) && isOverlay == old(isOverlay)
          invariant snapshotRequest == old(snapshotRequest)
        {
          currentFrame := currentFrame + [music.frames[i]];
          i := i + 1;
        }
      }
      assert currentFrame == SampleSlice(music, samplesPerFrame);
      currentFrame := window(currentFrame);
      currentFrame := Resize(currentFrame, samplesPerFrame);
      FrameSamplesPadding(music, samplesPerFrame, window);
    }

    /** `find_tones`: clusters the spectrum into new notes and sorts them by
        ascending peak amplitude; the notes hold exactly the values `Tones`
        specifies. */
    method FindTones(spectrum: seq<Bin>)
      modifies this
      ensures States(currentNotes) == Tones(spectrum)
      ensures forall k :: 0 <= k < |currentNotes| ==> fresh(currentNotes[k])
      ensures samplesPerFrame == old(samplesPerFrame) && currentFrame == old(currentFrame)
      ensures previousImage == old(previousImage) && isOverlay == old(isOverlay)
      ensures snapshotRequest == old(snapshotRequest)
    {
      var notes := GatherNotes(spectrum);
      currentNotes := SortNotes(notes);
    }

    /** Whether `new_frame` analyses the music: it is loaded and not stopped (a
        paused song still counts). */
    static predicate Playing(musicState: MusicState) {
      musicState.Loaded? && !musicState.music.stopped
    }

    /**
     * `new_frame`: follows the overlay setting, starts from the kept image in
     * overlay mode and from a blank canvas otherwise, paints the notes of the
     * current block when music is playing, keeps the result in overlay mode and
     * writes it when a snapshot was requested.
     */
    method NewFrame(overlay: bool, musicState: MusicState, window: seq<real> -> seq<real>,
                    fft: (seq<real>, nat) --> seq<Bin>)
      returns (frame: Image, written: Option<Snapshot>)
      requires Valid()
      requires Playing(musicState) ==> samplesPerFrame > 0
      requires KeepsLength(window)
      requires forall s: seq<real>, rate: nat :: IsPowerOfTwo(|s|) ==> fft.requires(s, rate)
      modifies this
      ensures Valid()
      ensures samplesPerFrame == old(samplesPerFrame)
      ensures isOverlay == overlay
      // The canvas is the kept image only when overlay mode stays on; switching
      // it on starts from blank, because nothing is kept while it is off.
      ensures !Playing(musicState) ==> frame == (if overlay && old(isOverlay) then old(previousImage) else Blank)
      ensures Playing(musicState) ==>
        && currentFrame == FrameSamples(musicState.music, samplesPerFrame, window)
        && States(currentNotes) == Tones(fft(currentFrame, musicState.music.sampleRate))
        && frame == PaintAll(if overlay && old(isOverlay) then old(previousImage) else Blank, States(currentNotes), palette)
      ensures previousImage == (if overlay then frame else Blank)
      ensures written == (if old(snapshotRequest).Some? then Some(Snapshot(old(snapshotRequest).value, frame)) else None)
      ensures snapshotRequest == None
      ensures !Playing(musicState) ==> currentFrame == old(currentFrame) && currentNotes == old(currentNotes)
    {
      if overlay != isOverlay {
        isOverlay := overlay;
        if !isOverlay {
          ClearOverlay();
        }
      }
      ghost var start := if overlay && old(isOverlay) then old(previousImage) else Blank;
      var image := if isOverlay then previousImage else Blank;
      assert image == start;
      if Playing(musicState) {
        var music := musicState.music;
        UpdateSamples(music, window);
        var spectrum := fft(currentFrame, music.sampleRate);
        FindTones(spectrum);
        image := PaintNotes(image, currentNotes, palette);
      }
      if isOverlay {
        previousImage := image;
      }
      written := None;
      if snapshotRequest.Some? {
        written := Some(Snapshot(snapshotRequest.value, image));
        snapshotRequest := None;
      }
      frame := image;
    }
  }
}

=== FILE: wrappers.dfy ===
/** Failure-carrying results, standing in for Rust's `Option` and `Result`. */
module Wrappers {

  datatype Option<+T> = None | Some(value: T)

  datatype Result<+R, +E> = Success(value: R) | Failure(error: E)
}
